=== FILE: README.md ===
# Isolation-procedure record extractor, modelled in Dafny

The service has one endpoint, `search_isolation_procedure`. It receives the
text of an isolation-procedure document and trims it. It then runs one fixed
pattern over the text with `finditer`, compiled with `re.DOTALL | re.IGNORECASE`:

    Error Code[:\s]+(?P<code>\w+).*?Description[:\s]+(?P<desc>.+?)
    Resolution Steps[:\s]*(?P<steps>.*?)(?=Error Code|\Z)

Each match becomes an `ErrorFixDetail` block:

- the `code` group, trimmed;
- the `desc` group, trimmed;
- the resolution steps: the `steps` group is trimmed and cut with
  `re.split(r'\n|\r|\d+\.', ...)`; blank fragments are dropped; the rest are
  stripped of spaces, dashes and periods.

The response pairs the trimmed text with the blocks, in order.

The model has four modules:

- `Text` (`text.dfy`): the character classes `\s`, `\w`, `\d` and `[:\s]`.
  It also holds the letter-case folding used under IGNORECASE, maximal runs
  (what a greedy class repetition takes), first occurrences (where a lazy
  `.*?` stops) and Python's `str.strip`.
- `Steps` (`steps.dfy`): `re.split` with the separator pattern, the filter
  and the strip of the step list comprehension.
- `Extractor` (`extractor.dfy`): the pattern written out as a scanner. It
  makes the same greedy, lazy and backtracking choices as Python's
  backtracking matcher:
  - `[:\s]+` takes the whole delimiter run;
  - `\w+` takes the whole word, and gives characters back only when the word
    itself ends in `Description`;
  - the lazy `.*?` stops at the first `Description` keyword the rest of the
    pattern can follow;
  - the `desc` group's delimiter run gives back one character only when
    `Resolution Steps` follows it directly and none starts later, at least
    one character past the run;
  - the `steps` group stops at the next `Error Code` or at the end of the text.

  `finditer` is modelled generically over any matcher anchored at its start
  position.
- `Procedure` (`procedure.dfy`): the endpoint and its response records.

The scanner is proved both sound and complete against a declarative
description of what the pattern can match (`IsRecordShape`). It succeeds at
a position exactly when some match of the whole pattern starts there.
`Chosen` states which of the possible matches the backtracking order picks,
for every group. It uses the scanner's `DescriptionAt` only to say that no
description fits after a `Description` keyword, and
`Extractor.DescriptionAtNone` characterises that without the scanner: no
span has the shape of the pattern's description part there. `Chosen` pins
the match down: a match with the chosen groups is the one the scanner
returns (`Extractor.ChosenIsMatchAt`).

## Model

| member | source | states |
|---|---|---|
| Text.IsSpace | main.py:37-39 | `\s` in the pattern, like `str.strip()` with no argument, accepts exactly the characters of Python's `str.isspace()` (a definition; it has no contract of its own) |
| Text.Fold | main.py:40 | case folding keeps word characters word characters, sends upper-case ASCII letters to lower-case ones and leaves every other character alone; `Text.FoldIgnoresCase` says which letter |
| Text.FoldIgnoresCase | main.py:40 | under IGNORECASE a character matches a lower-case keyword letter exactly when it is that letter or its upper-case form, and any other keyword character only when it is that character |
| Text.OccursAt | main.py:37-39 | a keyword occurs at a position, letter case ignored (a definition; `Text.OccursAtSpec` characterises it) |
| Text.OccursAtSpec | main.py:37-40 | a keyword occurs at a position exactly when the text is long enough and each keyword character is the case-folded text character opposite it |
| Text.TrimSpec | main.py:26 | `strip()` removes exactly the leading whitespace run and a trailing whitespace run; what is left is a contiguous slice of the input that neither begins nor ends with whitespace |
| Text.Strip | main.py:50 | `strip(chars)` returns the slice left after the leading and trailing runs of the stripped characters; it is empty exactly when every character is stripped, and otherwise neither end is a stripped character |
| Text.RunLength | main.py:37 | a greedy character-class repetition takes a run of class characters that cannot be extended |
| Text.FindFromLeftmost | main.py:38-39 | a lazy `.*?` up to a keyword stops at the first occurrence at or after its start; it finds nothing exactly when there is no occurrence |
| Steps.SeparatorAt | main.py:51 | a separator found at a position is a full match of `\n\|\r\|\d+\.` there (a lone digit run without its period is not one); none is found only when no prefix of the text matches the pattern |
| Steps.SplitPieces | main.py:51 | `re.split` gives at least one fragment; `Steps.SplitPiecesWellFormed` and `Steps.SplitUnique` say which |
| Steps.SplitPiecesWellFormed | main.py:51 | the split is lossless: fragments and separators glued back give the text; every separator is a full match of the pattern; no fragment holds a place where the pattern matches; no separator could have started earlier |
| Steps.SplitUnique | main.py:51 | the split is the only well-formed lossless decomposition of the text, so it is the one `re.split` returns |
| Steps.SplitJoin | main.py:51 | splitting newline-joined separator-free texts gives those texts back |
| Steps.KeptIffNonSpace | main.py:52 | the filter `if step.strip()` keeps a fragment exactly when it holds a non-whitespace character |
| Steps.StepsOf | main.py:49-53 | the comprehension gives at most one step per fragment, and every step has the shape of an emitted step; `Steps.StepsAreKeptFragments` says which |
| Steps.ResolutionSteps | main.py:48-53 | no step contains `\n`, `\r` or a digit followed by a period, and no step begins or ends with a space, dash or period |
| Steps.StepsAreKeptFragments | main.py:49-53 | the steps correspond one to one, in order, to the fragments the filter keeps, each stripped of spaces, dashes and periods |
| Steps.ResolutionStepsSelect | main.py:48-53 | step `j` of a body is the `j`-th kept fragment of the trimmed body, stripped |
| Steps.RetokenizeJoined | main.py:48-53 | re-tokenising the newline-joined steps gives the same steps when every step holds a non-whitespace character, the first step does not begin with whitespace and the last does not end with it |
| Steps.DashGivesEmptyStep | main.py:50-52 | the fragment `-` is kept by the filter and stripped to an empty step: `a\n-` gives the steps `a` and the empty step |
| Steps.RetokenizeDropsEmptyStep | main.py:48-53 | re-tokenising is not the identity on every output: the steps of `a\n-`, joined and tokenised again, lose their empty step |
| Extractor.DescriptionAt | main.py:38-39 | what `Description[:\s]+(?P<desc>.+?)Resolution Steps` makes of a keyword position (no contract of its own; `Extractor.DescriptionAtSound` and `Extractor.DescriptionAtComplete` state it) |
| Extractor.DescriptionAtSound | main.py:38-39 | a description the scanner finds satisfies the `Description[:\s]+(?P<desc>.+?)Resolution Steps` part and is the one the matcher picks (`DescriptionChosen`): it ends at the first `Resolution Steps` after its first character, and it starts after the whole delimiter run unless it is the single delimiter given back, which happens only when no `Resolution Steps` starts after it |
| Extractor.DescriptionAtChosen | main.py:38-39 | the converse: a description with the picked shape is the one the scanner finds, so `DescriptionChosen` determines the `desc` group |
| Extractor.DescriptionChosenUnique | main.py:38-39 | after a given `Description` keyword at most one description has the picked shape: the span after the whole delimiter run and the given-back delimiter exclude each other |
| Extractor.DescriptionAtComplete | main.py:38-39 | wherever that part of the pattern can match after a `Description` keyword, the scanner finds a description there |
| Extractor.DescriptionAtNone | main.py:38-39 | the scanner finds no description after a keyword position exactly when no span has the shape of `Description[:\s]+(?P<desc>.+?)Resolution Steps` there |
| Extractor.FirstDescription | main.py:37-38 | the position the lazy `.*?` stops at is at or after where it starts and holds a `Description` keyword the rest of the pattern can follow; `Extractor.FirstDescriptionLeftmost` shows it is the leftmost one |
| Extractor.FirstDescriptionLeftmost | main.py:37-38 | the lazy `.*?` after the code stops at the leftmost `Description` keyword that the rest of the pattern can follow; it fails only when no keyword fits |
| Extractor.GluedDescription | main.py:37 | a fitting `Description` keyword that starts inside the code's word ends exactly where the word ends; this is the only way backtracking into `\w+` can help |
| Extractor.MatchAt | main.py:36-41 | a match found at `p` starts at `p`, satisfies the whole pattern, and has the groups the backtracking order chooses |
| Extractor.ChosenIsMatchAt | main.py:36-41 | a match of the whole pattern whose groups are the ones the backtracking order picks is exactly the match the scanner returns at its start |
| Extractor.ChosenUnique | main.py:36-41 | two matches of the whole pattern at the same start, both with the chosen groups, are the same: the chosen groups are determined by the start |
| Extractor.MatchAtComplete | main.py:36-41 | whenever some match of the whole pattern starts at `p`, with any groups, the scanner finds one at `p` |
| Extractor.MatchAtExactly | main.py:36-41 | the scanner succeeds at `p` if and only if a match of the whole pattern starts at `p` |
| Extractor.FirstMatchLeftmost | main.py:43 | `finditer`'s search reports the leftmost match at or after its position; no match starts before it, and none at all when it reports none |
| Extractor.FindAll | main.py:43 | `finditer`: each search resumes where the previous match ended (no contract of its own; `Extractor.FindAllScanned`, `Extractor.FindAllExhaustive` and `Extractor.FindAllCount` state what it yields) |
| Extractor.FindAllScanned | main.py:43 | `finditer` yields only genuine matches, each at its own start, in left-to-right order and without overlap |
| Extractor.FindAllExhaustive | main.py:43 | every position where the pattern matches lies inside a reported match; a match is skipped only when it starts inside an earlier one |
| Extractor.FindAllCount | main.py:43 | `finditer` yields at most as many matches as a left-to-right scan finds non-overlapping `Error Code` keywords |
| Extractor.FindAllNeedsKeyword | main.py:39-43 | without an `Error Code` keyword there are no matches |
| Procedure.Records | main.py:36-43 | each match of the trimmed text is the one the scanner returns at its start, a whole-pattern match with the chosen groups; they are ordered, non-overlapping, at most one per keyword, and none is missed |
| Procedure.Detail | main.py:44-59 | one `ErrorFixDetail` per match (no contract of its own; `Procedure.CodeAsWritten` ties the code to the `code` group, `Procedure.DescriptionTrimmed` the description to the `desc` group stripped, and `Procedure.ResponseSteps` the steps to the tokens of the `steps` group) |
| Procedure.CodeAsWritten | main.py:37-44 | a block's `error_code` is the `code` group as written: a non-empty run of word characters that keeps its letter case |
| Procedure.DescriptionTrimmed | main.py:38-45 | a block's `description` is the `desc` group with its leading whitespace run and a trailing whitespace run removed, as `strip()` gives it; it neither begins nor ends with whitespace, and it is empty only when the `desc` group was a single whitespace delimiter given back |
| Procedure.StepsBodyHasNoKeyword | main.py:39-48 | the `steps` group that a block's steps come from contains no `Error Code` |
| Procedure.SearchIsolationProcedure | main.py:25-26 | `original_text` is the input with its leading and trailing whitespace removed |
| Procedure.ResponseDescriptions | main.py:43-59 | the response has one block per match, in order, and every block's description is its match's `desc` group stripped of leading and trailing whitespace; it neither begins nor ends with whitespace, and it is empty only when that group was a single whitespace delimiter given back |
| Procedure.ResponseSteps | main.py:43-59 | the response has one block per match, in order; every block's steps are the tokens of its match's `steps` group, and that group holds no `Error Code` |
| Procedure.BlocksWellFormed | main.py:43-59 | the response has one block per match, and in every block the code is the match's `code` group as written, a non-empty word, and every step has the shape the tokenizer promises |
| Procedure.MatchCount | main.py:26-43 | the response has at most as many blocks as non-overlapping `Error Code` keywords in the trimmed text; it has none when there is no keyword, for example on an empty input |

## Left out

- The FastAPI route, the pydantic models and request validation (main.py:1-24) are left out. The request is modelled as a string, and the response as the `Output` and `ErrorFixDetail` datatypes.
- The debug `print` calls (main.py:29-31) have no effect on the result and are not modelled.
- `\w` and `\d` are restricted to ASCII. Python's `str` patterns also accept other Unicode letters and digits.
- IGNORECASE is modelled as ASCII lower-casing. Python also lets a few non-ASCII characters match keyword letters: the capital I with dot above (U+0130) and the dotless i (U+0131) match `i`, and the long s (U+017F) matches `s`. A text that spells a keyword with one of these is not recognised by the model.
- `\s` and `str.strip()` are modelled by the exact set of characters Python's `str.isspace()` accepts, so nothing is left out there.
- Points where the code behaves differently from what a reader might expect. The model follows the code:
  - the error code is not upper-cased on output;
  - a fragment such as `-` that strips to nothing is kept as an empty step, not discarded;
  - a `- ` dash marker is not a split boundary;
  - re-tokenising the newline-joined steps does not always give the same steps. It loses an empty step (see `Steps.RetokenizeDropsEmptyStep`), and it strips whitespace that the step list keeps: `1.\tfoo` gives the step `\tfoo`, which re-tokenises to `foo`, and the fragment `\t-` gives the blank step `\t`, which re-tokenising drops. It does give the same steps when every step holds a non-whitespace character, the first step does not begin with whitespace and the last does not end with it (`Steps.RetokenizeJoined`).
- main.py has only this endpoint; nothing else is modelled.

=== FILE: extractor.dfy ===
/**
  The record scanner of `search_isolation_procedure`: the fixed pattern

    Error Code[:\s]+(?P<code>\w+).*?Description[:\s]+(?P<desc>.+?)
    Resolution Steps[:\s]*(?P<steps>.*?)(?=Error Code|\Z)

  compiled with DOTALL and IGNORECASE and run with `finditer`, written out
  as a scanner that makes the same greedy, lazy and backtracking choices.
 */
module Extractor {
  import opened Text
  import Steps

  const ErrorCodeKw: string := "error code"
  const DescriptionKw: string := "description"
  const ResolutionStepsKw: string := "resolution steps"

  /** Where one match lies: the `Error Code` keyword at `start`, the `code`
      group, the `Description` keyword, the `desc` group (which ends where
      `Resolution Steps` begins) and the `steps` group, whose end is the end
      of the match. */
  datatype RawMatch = RawMatch(start: nat, code: Span, descKeyword: nat, desc: Span, steps: Span)
  {
    function End(): nat { steps.hi }
  }

  /** The `Description[:\s]+(?P<desc>.+?)Resolution Steps` part of the
      pattern matches with the keyword at `d` and the group at `desc`. */
  predicate DescriptionShape(t: string, d: nat, desc: Span) {
    && OccursAt(t, d, DescriptionKw)
    && d + |DescriptionKw| < desc.lo < desc.hi
    && AllIn(t, d + |DescriptionKw|, desc.lo, IsDelim)
    && OccursAt(t, desc.hi, ResolutionStepsKw)
  }

  /** Which of the shapes of the description part the matcher picks: `desc`
      ends at the first `Resolution Steps` after its first character, and it
      starts with a delimiter only when that delimiter is the one character
      the run gives back, which happens only when no `Resolution Steps`
      starts after the run plus one character. */
  predicate DescriptionChosen(t: string, d: nat, desc: Span) {
    && DescriptionShape(t, d, desc)
    && (forall q :: desc.lo < q < desc.hi ==> !OccursAt(t, q, ResolutionStepsKw))
    && (IsDelim(t[desc.lo]) ==>
          && desc.hi == desc.lo + 1
          && forall q :: desc.hi < q <= |t| ==> !OccursAt(t, q, ResolutionStepsKw))
  }

  /** The whole pattern matches `t[m.start..m.End()]` with the groups `m`
      records, whichever choices the matcher made; the steps group, lazy
      up to the lookahead, runs to the first `Error Code` after its start or
      to the end of the text. */
  predicate IsRecordShape(t: string, m: RawMatch) {
    && OccursAt(t, m.start, ErrorCodeKw)
    && m.start + |ErrorCodeKw| < m.code.lo < m.code.hi <= m.descKeyword
    && AllIn(t, m.start + |ErrorCodeKw|, m.code.lo, IsDelim)
    && AllIn(t, m.code.lo, m.code.hi, IsWord)
    && DescriptionShape(t, m.descKeyword, m.desc)
    && m.desc.hi + |ResolutionStepsKw| <= m.steps.lo <= m.steps.hi <= |t|
    && AllIn(t, m.desc.hi + |ResolutionStepsKw|, m.steps.lo, IsDelim)
    && (m.steps.hi == |t| || OccursAt(t, m.steps.hi, ErrorCodeKw))
    && (forall q :: m.steps.lo <= q < m.steps.hi ==> !OccursAt(t, q, ErrorCodeKw))
  }

  /** The groups of `m` lie in `t`, in order. */
  predicate InText(t: string, m: RawMatch) {
    m.code.lo <= m.code.hi <= m.desc.lo <= m.desc.hi <= m.steps.lo <= m.steps.hi <= |t|
  }

  /** Which of the shapes the backtracking matcher picks: `\w+` keeps the
      whole word unless the word ends in the `Description` keyword itself
      and no `Description` keyword after the whole word can be followed by
      the rest, the lazy `.*?` stops at the first `Description` keyword that
      the rest can follow, the description is the one the description part
      picks after that keyword, and `[:\s]*` takes the whole delimiter run
      before the steps. */
  predicate Chosen(t: string, m: RawMatch) {
    && (m.code.hi < |t| && IsWord(t[m.code.hi]) ==> m.code.hi == m.descKeyword)
    && (m.code.hi < |t| && IsWord(t[m.code.hi]) ==>
          forall d :: m.descKeyword + |DescriptionKw| <= d <= |t| ==> DescriptionAt(t, d).None?)
    && (forall d :: m.code.hi <= d < m.descKeyword ==> DescriptionAt(t, d).None?)
    && DescriptionChosen(t, m.descKeyword, m.desc)
    && (m.steps.lo < |t| ==> !IsDelim(t[m.steps.lo]))
  }

  /** What the description part makes of a `Description` keyword at `d`. */
  function DescriptionAt(t: string, d: nat): (r: Option<Span>) {
    if !OccursAt(t, d, DescriptionKw) then None
    else DescriptionAfter(t, d + |DescriptionKw|)
  }

  /** `[:\s]+(?P<desc>.+?)Resolution Steps` tried at `a`: the delimiter
      class first takes its whole run. */
  function DescriptionAfter(t: string, a: nat): (r: Option<Span>)
    requires a <= |t|
  {
    var k := RunLength(t, a, IsDelim);
    if k == 0 then None else DescriptionFrom(t, a + k, k)
  }

  /** With a delimiter run of length `k` ending at `lo`, `.+?` looks for the
      first `Resolution Steps` at least one character further on; when there
      is none, the run gives back one character, which helps only if
      `Resolution Steps` follows the run directly. */
  function DescriptionFrom(t: string, lo: nat, k: nat): (r: Option<Span>)
    requires k <= lo <= |t|
  {
    var found := if lo < |t| then FindFrom(t, lo + 1, ResolutionStepsKw) else None;
    if found.Some? then Some(Span(lo, found.value))
    else if k >= 2 && OccursAt(t, lo, ResolutionStepsKw) then Some(Span(lo - 1, lo))
    else None
  }

  /** A description the scanner finds is one the pattern allows, and it is
      the one the matcher picks. */
  lemma DescriptionAtSound(t: string, d: nat)
    requires DescriptionAt(t, d).Some?
    ensures DescriptionChosen(t, d, DescriptionAt(t, d).value)
  {
    var a := d + |DescriptionKw|;
    var k := RunLength(t, a, IsDelim);
    var lo := a + k;
    DescriptionUnfold(t, d);
    var found := if lo < |t| then FindFrom(t, lo + 1, ResolutionStepsKw) else None;
    if lo < |t| {
      FindFromLeftmost(t, lo + 1, ResolutionStepsKw);
    }
    var desc := DescriptionAt(t, d).value;
    if found.Some? {
      assert desc == Span(lo, found.value);
      DescriptionFoundShape(t, d, desc);
    } else {
      assert desc == Span(lo - 1, lo);
      DescriptionGivenBackShape(t, d, desc);
    }
  }

  /** The description that runs from the end of the delimiter run to the
      first `Resolution Steps` after it. */
  lemma DescriptionFoundShape(t: string, d: nat, desc: Span)
    requires OccursAt(t, d, DescriptionKw)
    requires RunLength(t, d + |DescriptionKw|, IsDelim) > 0
    requires desc.lo == d + |DescriptionKw| + RunLength(t, d + |DescriptionKw|, IsDelim)
    requires desc.lo < desc.hi && OccursAt(t, desc.hi, ResolutionStepsKw)
    requires forall q :: desc.lo + 1 <= q < desc.hi ==> !OccursAt(t, q, ResolutionStepsKw)
    ensures DescriptionChosen(t, d, desc)
  {
  }

  /** The description that is the last delimiter of a run of at least two,
      given back because `Resolution Steps` follows the run directly and
      none starts later. */
  lemma DescriptionGivenBackShape(t: string, d: nat, desc: Span)
    requires OccursAt(t, d, DescriptionKw)
    requires RunLength(t, d + |DescriptionKw|, IsDelim) >= 2
    requires desc.hi == d + |DescriptionKw| + RunLength(t, d + |DescriptionKw|, IsDelim)
    requires desc.lo + 1 == desc.hi && OccursAt(t, desc.hi, ResolutionStepsKw)
    requires forall q :: desc.hi + 1 <= q <= |t| ==> !OccursAt(t, q, ResolutionStepsKw)
    ensures DescriptionChosen(t, d, desc)
  {
  }

  /** The converse of `DescriptionAtSound`: the description the matcher
      picks is the one the scanner finds. */
  lemma DescriptionAtChosen(t: string, d: nat, desc: Span)
    requires DescriptionChosen(t, d, desc)
    ensures DescriptionAt(t, d) == Some(desc)
  {
    DescriptionAtComplete(t, d, desc);
    DescriptionAtSound(t, d);
    DescriptionChosenUnique(t, d, DescriptionAt(t, d).value, desc);
  }

  /** At most one description is the one the matcher picks: the two
      candidates, after the whole delimiter run and the single delimiter
      given back, exclude each other. */
  lemma DescriptionChosenUnique(t: string, d: nat, x: Span, y: Span)
    requires DescriptionChosen(t, d, x) && DescriptionChosen(t, d, y)
    ensures x == y
  {
    var a := d + |DescriptionKw|;
    var ex := DescriptionRunEnd(t, d, x);
    var ey := DescriptionRunEnd(t, d, y);
    SameRunEnd(t, a, ex, ey);
  }

  /** Where the delimiter run after the keyword ends, seen from a picked
      description: at its start, or at its end when it is the given-back
      delimiter. */
  lemma DescriptionRunEnd(t: string, d: nat, desc: Span) returns (e: nat)
    requires DescriptionChosen(t, d, desc)
    ensures e == (if IsDelim(t[desc.lo]) then desc.hi else desc.lo)
    ensures d + |DescriptionKw| <= e <= |t| && AllIn(t, d + |DescriptionKw|, e, IsDelim)
    ensures e < |t| ==> !IsDelim(t[e])
  {
    if IsDelim(t[desc.lo]) {
      KeywordNotDelim(t, desc.hi, ResolutionStepsKw);
      e := desc.hi;
    } else {
      e := desc.lo;
    }
  }

  /** Once `Description` occurs at `d` and a delimiter follows it, the
      description part is tried after the whole delimiter run. */
  lemma DescriptionUnfold(t: string, d: nat)
    requires OccursAt(t, d, DescriptionKw)
    requires RunLength(t, d + |DescriptionKw|, IsDelim) > 0
    ensures var k := RunLength(t, d + |DescriptionKw|, IsDelim);
      DescriptionAt(t, d) == DescriptionFrom(t, d + |DescriptionKw| + k, k)
  {
  }

  /** Whenever the description part can match at `d` at all, the scanner
      finds a description there. */
  lemma DescriptionAtComplete(t: string, d: nat, desc: Span)
    requires DescriptionShape(t, d, desc)
    ensures DescriptionAt(t, d).Some?
  {
    var a := d + |DescriptionKw|;
    var k := RunLength(t, a, IsDelim);
    DelimRunBounds(t, a, desc.lo, desc.hi);
    DescriptionFromFinds(t, a + k, k, desc.hi);
    DescriptionUnfold(t, d);
  }

  /** Whether a description fits after a keyword is a property of the
      pattern alone: the scanner finds none at `d` exactly when no
      description has the pattern's shape there. */
  lemma DescriptionAtNone(t: string, d: nat)
    ensures DescriptionAt(t, d).None? <==> forall desc :: !DescriptionShape(t, d, desc)
  {
    if DescriptionAt(t, d).Some? {
      DescriptionAtSound(t, d);
      assert DescriptionShape(t, d, DescriptionAt(t, d).value);
    } else {
      forall desc | DescriptionShape(t, d, desc)
        ensures false
      {
        DescriptionAtComplete(t, d, desc);
      }
    }
  }

  /** A delimiter run from `a` that covers `[a, lo)` with `lo > a` and stops
      before the keyword at `hi` has length at least two when it reaches `hi`. */
  lemma DelimRunBounds(t: string, a: nat, lo: nat, hi: nat)
    requires a < lo < hi && AllIn(t, a, lo, IsDelim) && OccursAt(t, hi, ResolutionStepsKw)
    ensures var k := RunLength(t, a, IsDelim);
      && lo <= a + k <= hi && (a + k == hi ==> k >= 2)
  {
    var k := RunLength(t, a, IsDelim);
    if a + k > hi {
      KeywordNotDelim(t, hi, ResolutionStepsKw);
    }
  }

  /** A `Resolution Steps` at `hi` lets the description part succeed after a
      delimiter run of length `k` ending at `lo`, if it leaves room for one
      character of description. */
  lemma DescriptionFromFinds(t: string, lo: nat, k: nat, hi: nat)
    requires k <= lo <= hi && OccursAt(t, hi, ResolutionStepsKw)
    requires hi == lo ==> k >= 2
    ensures DescriptionFrom(t, lo, k).Some?
  {
    if hi > lo {
      FindFromLeftmost(t, lo + 1, ResolutionStepsKw);
    }
  }

  /** The first `Description` keyword at or after `i` that the rest of the
      pattern can follow: where the lazy `.*?` after the code stops. */
  function FirstDescription(t: string, i: nat): (r: Option<nat>)
    requires i <= |t|
    ensures r.Some? ==> i <= r.value && DescriptionAt(t, r.value).Some?
    decreases |t| - i
  {
    if DescriptionAt(t, i).Some? then Some(i)
    else if i == |t| then None
    else FirstDescription(t, i + 1)
  }

  /** `FirstDescription` finds the leftmost keyword that fits, and nothing
      exactly when none fits. */
  lemma {:induction false} FirstDescriptionLeftmost(t: string, i: nat)
    requires i <= |t|
    ensures var r := FirstDescription(t, i);
      && (r.Some? ==> forall q :: i <= q < r.value ==> DescriptionAt(t, q).None?)
      && (r.None? ==> forall q :: i <= q <= |t| ==> DescriptionAt(t, q).None?)
    decreases |t| - i
  {
    if DescriptionAt(t, i).Some? {
      assert FirstDescription(t, i) == Some(i);
    } else if i == |t| {
      assert FirstDescription(t, i) == None;
    } else {
      var r := FirstDescription(t, i + 1);
      assert FirstDescription(t, i) == r;
      FirstDescriptionLeftmost(t, i + 1);
      NoDescriptionBefore(t, i, if r.Some? then r.value else |t| + 1);
    }
  }

  /** One more position without a fitting keyword extends a gap by one. */
  lemma NoDescriptionBefore(t: string, i: nat, hi: nat)
    requires DescriptionAt(t, i).None?
    requires forall q :: i + 1 <= q < hi ==> DescriptionAt(t, q).None?
    ensures forall q :: i <= q < hi ==> DescriptionAt(t, q).None?
  {
  }

  /** The facts every partial match from `p` up to the code `t[w..e]`
      carries: `Error Code` at `p`, a non-empty delimiter run up to `w`, and
      a word from `w` to `e`. */
  predicate CodeContext(t: string, p: nat, w: nat, e: nat) {
    && OccursAt(t, p, ErrorCodeKw)
    && p + |ErrorCodeKw| < w <= e <= |t|
    && AllIn(t, p + |ErrorCodeKw|, w, IsDelim)
    && AllIn(t, w, e, IsWord)
  }

  /** The match once the code and the `Description` keyword are fixed: the
      steps group starts after the whole delimiter run that follows
      `Resolution Steps` and stops at the next `Error Code` or at the end. */
  function Complete(t: string, p: nat, code: Span, d: nat): (r: RawMatch)
    requires CodeContext(t, p, code.lo, code.hi) && code.lo < code.hi <= d
    requires DescriptionAt(t, d).Some?
    ensures r.start == p && r.code == code && r.descKeyword == d
    ensures IsRecordShape(t, r)
    ensures DescriptionAt(t, d) == Some(r.desc) && DescriptionChosen(t, d, r.desc)
    ensures r.steps.lo < |t| ==> !IsDelim(t[r.steps.lo])
  {
    DescriptionAtSound(t, d);
    var desc := DescriptionAt(t, d).value;
    var s0 := desc.hi + |ResolutionStepsKw|;
    var lo := s0 + RunLength(t, s0, IsDelim);
    FindFromLeftmost(t, lo, ErrorCodeKw);
    var hi := match FindFrom(t, lo, ErrorCodeKw) case Some(e) => e case None => |t|;
    RawMatch(p, code, d, desc, Span(lo, hi))
  }

  /** The match the pattern finds when it is tried at position `p`, if any:
      it starts at `p` and is a match of the whole pattern. */
  function MatchAt(t: string, p: nat): (r: Option<RawMatch>)
    ensures r.Some? ==> r.value.start == p && IsRecordShape(t, r.value)
    ensures r.Some? ==> Chosen(t, r.value)
    ensures r.None? ==> !OccursAt(t, p, ErrorCodeKw) || MatchDelimiter(t, p).None?
  {
    if !OccursAt(t, p, ErrorCodeKw) then None
    else MatchDelimiter(t, p)
  }

  /** Where the code can start after the `Error Code` keyword at `p`:
      `[:\s]+` takes the whole delimiter run. */
  function CodeStart(t: string, p: nat): (w: nat)
    requires p + |ErrorCodeKw| <= |t|
    ensures p + |ErrorCodeKw| <= w <= |t| && AllIn(t, p + |ErrorCodeKw|, w, IsDelim)
    ensures w < |t| ==> !IsDelim(t[w])
  {
    p + |ErrorCodeKw| + RunLength(t, p + |ErrorCodeKw|, IsDelim)
  }

  /** Where the word that starts at `w` ends: `\w+` takes the whole word. */
  function WordEnd(t: string, w: nat): (e: nat)
    requires w <= |t|
    ensures w <= e <= |t| && AllIn(t, w, e, IsWord)
    ensures e < |t| ==> !IsWord(t[e])
  {
    w + RunLength(t, w, IsWord)
  }

  /** The pattern after `Error Code`: at least one delimiter, then the code. */
  function MatchDelimiter(t: string, p: nat): (r: Option<RawMatch>)
    requires OccursAt(t, p, ErrorCodeKw)
    ensures r.Some? ==> r.value.start == p && IsRecordShape(t, r.value)
    ensures r.Some? ==> Chosen(t, r.value)
    ensures r.None? ==> CodeStart(t, p) == p + |ErrorCodeKw| || MatchCode(t, p, CodeStart(t, p)).None?
  {
    var w := CodeStart(t, p);
    if w == p + |ErrorCodeKw| then None else MatchCode(t, p, w)
  }

  /** `(?P<code>\w+)` takes the whole word that starts at `w`. */
  function MatchCode(t: string, p: nat, w: nat): (r: Option<RawMatch>)
    requires CodeContext(t, p, w, w)
    ensures r.Some? ==> r.value.start == p && IsRecordShape(t, r.value)
    ensures r.Some? ==> Chosen(t, r.value)
    ensures r.None? ==> WordEnd(t, w) == w || MatchRest(t, p, w, WordEnd(t, w)).None?
  {
    var e := WordEnd(t, w);
    if e == w then None else MatchRest(t, p, w, e)
  }

  /** The rest of the pattern after the whole word `t[w..e]`: the lazy `.*?`
      stops at the first `Description` keyword from `e` on that the rest can
      follow. */
  function MatchRest(t: string, p: nat, w: nat, e: nat): (r: Option<RawMatch>)
    requires CodeContext(t, p, w, e) && w < e
    requires e < |t| ==> !IsWord(t[e])
    ensures r.Some? ==> r.value.start == p && IsRecordShape(t, r.value)
    ensures r.Some? ==> Chosen(t, r.value)
    ensures r.None? ==> && FirstDescription(t, e).None?
                        && (forall d :: e <= d <= |t| ==> DescriptionAt(t, d).None?)
                        && GiveBack(t, p, w, e).None?
  {
    FirstDescriptionLeftmost(t, e);
    match FirstDescription(t, e)
    case Some(d) => Some(Complete(t, p, Span(w, e), d))
    case None => GiveBack(t, p, w, e)
  }

  /** `\w+` gives characters back when no `Description` can follow the whole
      word; that helps only when the word itself ends in `Description`. */
  function GiveBack(t: string, p: nat, w: nat, e: nat): (r: Option<RawMatch>)
    requires CodeContext(t, p, w, e) && w < e
    requires forall d :: e <= d <= |t| ==> DescriptionAt(t, d).None?
    ensures r.Some? ==> r.value.start == p && IsRecordShape(t, r.value)
    ensures r.Some? ==> Chosen(t, r.value)
    ensures r.None? ==> e - w <= |DescriptionKw| || DescriptionAt(t, e - |DescriptionKw|).None?
  {
    if e - w <= |DescriptionKw| then None
    else if DescriptionAt(t, e - |DescriptionKw|).None? then None
    else Some(Complete(t, p, Span(w, e - |DescriptionKw|), e - |DescriptionKw|))
  }

  /** Whenever the pattern can match at `p` at all, with whatever groups,
      the scanner finds a match there: together with `MatchAt`'s contract,
      the scanner succeeds exactly where the pattern matches. */
  lemma MatchAtComplete(t: string, m: RawMatch)
    requires IsRecordShape(t, m)
    ensures MatchAt(t, m.start).Some?
  {
    var e := CodeComplete(t, m);
    RestComplete(t, m.start, m.code.lo, e, m.descKeyword, m.desc);
  }

  /** Tried at the start of a match, the scanner reaches the rest of the
      pattern with the code group starting where the match's does and
      running over a whole word at least as long. */
  lemma CodeComplete(t: string, m: RawMatch) returns (e: nat)
    requires IsRecordShape(t, m)
    ensures m.code.hi <= e <= |t| && AllIn(t, m.code.lo, e, IsWord)
    ensures e < |t| ==> !IsWord(t[e])
    ensures MatchRest(t, m.start, m.code.lo, e).Some? ==> MatchAt(t, m.start).Some?
  {
    var p := m.start;
    WordNotDelim(t[m.code.lo]);
    RunLengthExact(t, p + |ErrorCodeKw|, m.code.lo, IsDelim);
    assert CodeStart(t, p) == m.code.lo;
    e := WordEnd(t, m.code.lo);
    assert e >= m.code.hi;
  }

  /** The rest of the pattern after a whole word `t[w..e]` succeeds when
      some `Description` keyword after the word's first character can be
      followed by the rest. */
  lemma RestComplete(t: string, p: nat, w: nat, e: nat, d: nat, desc: Span)
    requires CodeContext(t, p, w, e) && w < e && (e < |t| ==> !IsWord(t[e]))
    requires w < d && DescriptionShape(t, d, desc)
    ensures MatchRest(t, p, w, e).Some?
  {
    FirstDescriptionLeftmost(t, e);
    if FirstDescription(t, e).None? {
      DescriptionAtComplete(t, d, desc);
      GluedDescription(t, w, e, d, desc);
    }
  }

  /** A `Description` keyword that the rest of the pattern can follow and
      that starts inside a whole word ends exactly where the word ends. */
  lemma GluedDescription(t: string, w: nat, e: nat, d: nat, desc: Span)
    requires AllIn(t, w, e, IsWord) && (e < |t| ==> !IsWord(t[e]))
    requires w <= d < e
    requires DescriptionShape(t, d, desc)
    ensures d + |DescriptionKw| == e
  {
    if d + |DescriptionKw| < e {
      WordNotDelim(t[d + |DescriptionKw|]);
    } else if d + |DescriptionKw| > e {
      OccursAtChar(t, d, DescriptionKw, e);
    }
  }

  /** The scanner succeeds at `p` exactly when some match of the pattern
      starts at `p`. */
  lemma MatchAtExactly(t: string, p: nat)
    ensures MatchAt(t, p).Some? <==> exists m: RawMatch :: m.start == p && IsRecordShape(t, m)
  {
    if m: RawMatch :| m.start == p && IsRecordShape(t, m) {
      MatchAtComplete(t, m);
    }
  }

  /** `Chosen` pins the match down: a match of the whole pattern with the
      groups the backtracking order picks is exactly the one the scanner
      returns at its start, so no two such matches share a start. */
  lemma ChosenIsMatchAt(t: string, m: RawMatch)
    requires IsRecordShape(t, m) && Chosen(t, m)
    ensures MatchAt(t, m.start) == Some(m)
  {
    DescriptionAtChosen(t, m.descKeyword, m.desc);
    ChosenScan(t, m.start, m.code, m.descKeyword, m.desc);
    CompleteIs(t, m);
  }

  /** Two matches of the whole pattern at the same start, both with the
      groups the backtracking order picks, are the same match. */
  lemma ChosenUnique(t: string, m1: RawMatch, m2: RawMatch)
    requires IsRecordShape(t, m1) && Chosen(t, m1)
    requires IsRecordShape(t, m2) && Chosen(t, m2)
    requires m1.start == m2.start
    ensures m1 == m2
  {
    ChosenIsMatchAt(t, m1);
    ChosenIsMatchAt(t, m2);
  }

  /** The scanner's walk for a match whose code is `code` and whose
      `Description` keyword is at `d`, chosen as the backtracking order
      chooses them: it reaches `Complete` with that code and keyword. */
  lemma ChosenScan(t: string, p: nat, code: Span, d: nat, desc: Span)
    requires CodeContext(t, p, code.lo, code.hi) && code.lo < code.hi <= d
    requires DescriptionAt(t, d).Some? && DescriptionShape(t, d, desc)
    requires code.hi < |t| && IsWord(t[code.hi]) ==> code.hi == d
    requires code.hi < |t| && IsWord(t[code.hi]) ==>
      forall q :: d + |DescriptionKw| <= q <= |t| ==> DescriptionAt(t, q).None?
    requires forall q :: code.hi <= q < d ==> DescriptionAt(t, q).None?
    ensures MatchAt(t, p) == Some(Complete(t, p, code, d))
  {
    var e := WordEnd(t, code.lo);
    if code.hi == e {
      ChosenScanWhole(t, p, code, d);
    } else {
      assert IsWord(t[code.hi]);
      ChosenScanGlued(t, p, code, d, desc);
    }
  }

  /** `ChosenScan` when the code is the whole word. */
  lemma ChosenScanWhole(t: string, p: nat, code: Span, d: nat)
    requires CodeContext(t, p, code.lo, code.hi) && code.lo < code.hi <= d
    requires code.hi == WordEnd(t, code.lo)
    requires DescriptionAt(t, d).Some?
    requires forall q :: code.hi <= q < d ==> DescriptionAt(t, q).None?
    ensures MatchAt(t, p) == Some(Complete(t, p, code, d))
  {
    var w := code.lo;
    WordNotDelim(t[w]);
    RunLengthExact(t, p + |ErrorCodeKw|, w, IsDelim);
    ScanReachesRest(t, p, w, code.hi);
    WholeWordRest(t, p, w, code.hi, d);
  }

  /** `ChosenScan` when the word goes on past the code: it ends with the
      `Description` keyword at `d`, and no keyword after the word fits. */
  lemma ChosenScanGlued(t: string, p: nat, code: Span, d: nat, desc: Span)
    requires CodeContext(t, p, code.lo, code.hi) && code.lo < code.hi == d
    requires code.hi < WordEnd(t, code.lo)
    requires DescriptionAt(t, d).Some? && DescriptionShape(t, d, desc)
    requires forall q :: d + |DescriptionKw| <= q <= |t| ==> DescriptionAt(t, q).None?
    ensures MatchAt(t, p) == Some(Complete(t, p, code, d))
  {
    var w := code.lo;
    var e := WordEnd(t, w);
    WordNotDelim(t[w]);
    RunLengthExact(t, p + |ErrorCodeKw|, w, IsDelim);
    GluedDescription(t, w, e, d, desc);
    ScanReachesRest(t, p, w, e);
    GluedRest(t, p, code, e);
  }

  /** Tried at an `Error Code` keyword whose delimiter run ends at `w`, the
      scanner goes on to the rest of the pattern after the whole word from `w`. */
  lemma ScanReachesRest(t: string, p: nat, w: nat, e: nat)
    requires OccursAt(t, p, ErrorCodeKw) && p + |ErrorCodeKw| < w < |t|
    requires CodeStart(t, p) == w && e == WordEnd(t, w) && w < e
    ensures MatchAt(t, p) == MatchRest(t, p, w, e)
  {
  }

  /** After the whole word, the rest of the pattern completes with the first
      fitting `Description` keyword. */
  lemma WholeWordRest(t: string, p: nat, w: nat, e: nat, d: nat)
    requires CodeContext(t, p, w, e) && w < e && (e < |t| ==> !IsWord(t[e]))
    requires e <= d && DescriptionAt(t, d).Some?
    requires forall q :: e <= q < d ==> DescriptionAt(t, q).None?
    ensures MatchRest(t, p, w, e) == Some(Complete(t, p, Span(w, e), d))
  {
    FirstDescriptionIs(t, e, d);
  }

  /** When no `Description` keyword after the whole word `t[code.lo..e]`
      fits and the word ends in a fitting one at `code.hi`, the code gives
      that keyword back. */
  lemma GluedRest(t: string, p: nat, code: Span, e: nat)
    requires CodeContext(t, p, code.lo, e) && code.lo < code.hi && (e < |t| ==> !IsWord(t[e]))
    requires code.hi + |DescriptionKw| == e && DescriptionAt(t, code.hi).Some?
    requires forall q :: e <= q <= |t| ==> DescriptionAt(t, q).None?
    ensures MatchRest(t, p, code.lo, e) == Some(Complete(t, p, code, code.hi))
  {
    RestGivesBack(t, p, code.lo, e);
    GiveBackKeyword(t, p, code, e);
  }

  /** When no `Description` keyword after the whole word fits, the rest of
      the pattern is left to `\w+` giving characters back. */
  lemma RestGivesBack(t: string, p: nat, w: nat, e: nat)
    requires CodeContext(t, p, w, e) && w < e && (e < |t| ==> !IsWord(t[e]))
    requires forall q :: e <= q <= |t| ==> DescriptionAt(t, q).None?
    ensures MatchRest(t, p, w, e) == GiveBack(t, p, w, e)
  {
    NoFirstDescription(t, e);
  }

  /** Giving back the `Description` keyword that ends the word completes
      the match with the code before it. */
  lemma GiveBackKeyword(t: string, p: nat, code: Span, e: nat)
    requires CodeContext(t, p, code.lo, e) && code.lo < code.hi
    requires code.hi + |DescriptionKw| == e && DescriptionAt(t, code.hi).Some?
    requires forall q :: e <= q <= |t| ==> DescriptionAt(t, q).None?
    ensures GiveBack(t, p, code.lo, e) == Some(Complete(t, p, code, code.hi))
  {
    var g := e - |DescriptionKw|;
    assert GiveBack(t, p, code.lo, e) == Some(Complete(t, p, Span(code.lo, g), g));
    assert Span(code.lo, g) == code && g == code.hi;
  }

  /** The lazy `.*?` from `i` stops at `d` when a fitting keyword is at `d`
      and none fits before it. */
  lemma FirstDescriptionIs(t: string, i: nat, d: nat)
    requires i <= d && i <= |t| && DescriptionAt(t, d).Some?
    requires forall q :: i <= q < d ==> DescriptionAt(t, q).None?
    ensures FirstDescription(t, i) == Some(d)
  {
    FirstDescriptionLeftmost(t, i);
  }

  /** The lazy `.*?` from `i` finds nothing when no keyword from `i` on fits. */
  lemma NoFirstDescription(t: string, i: nat)
    requires i <= |t|
    requires forall q :: i <= q <= |t| ==> DescriptionAt(t, q).None?
    ensures FirstDescription(t, i).None?
  {
  }

  /** Once the code and the `Description` keyword are those of `m`, and the
      description and the start of the steps are the ones the matcher picks,
      `Complete` gives `m` back. */
  lemma CompleteIs(t: string, m: RawMatch)
    requires IsRecordShape(t, m)
    requires DescriptionAt(t, m.descKeyword) == Some(m.desc)
    requires m.steps.lo < |t| ==> !IsDelim(t[m.steps.lo])
    ensures Complete(t, m.start, m.code, m.descKeyword) == m
  {
    var r := Complete(t, m.start, m.code, m.descKeyword);
    var s0 := m.desc.hi + |ResolutionStepsKw|;
    SameRunEnd(t, s0, r.steps.lo, m.steps.lo);
    SameStepsEnd(t, m.steps.lo, r.steps.hi, m.steps.hi);
  }

  /** Two ends of a delimiter run from `s0`, each followed by a
      non-delimiter or the end of the text, are the same. */
  lemma SameRunEnd(t: string, s0: nat, a: nat, b: nat)
    requires s0 <= a <= |t| && s0 <= b <= |t|
    requires AllIn(t, s0, a, IsDelim) && (a < |t| ==> !IsDelim(t[a]))
    requires AllIn(t, s0, b, IsDelim) && (b < |t| ==> !IsDelim(t[b]))
    ensures a == b
  {
  }

  /** Two ends of the steps group from `lo`, each at the end of the text or
      at an `Error Code` with none before it, are the same. */
  lemma SameStepsEnd(t: string, lo: nat, a: nat, b: nat)
    requires lo <= a <= |t| && lo <= b <= |t|
    requires (a == |t| || OccursAt(t, a, ErrorCodeKw)) && forall q :: lo <= q < a ==> !OccursAt(t, q, ErrorCodeKw)
    requires (b == |t| || OccursAt(t, b, ErrorCodeKw)) && forall q :: lo <= q < b ==> !OccursAt(t, q, ErrorCodeKw)
    ensures a == b
  {
  }

  /** A match that starts with the `Error Code` keyword and ends after it,
      inside the text. */
  predicate Located(t: string, m: RawMatch) {
    OccursAt(t, m.start, ErrorCodeKw) && m.start + |ErrorCodeKw| < m.End() <= |t|
  }

  /** What `finditer` needs of the pattern: a match tried at `p` starts at
      `p` and is located in the text. */
  ghost predicate Anchored(t: string, f: nat -> Option<RawMatch>) {
    forall p :: f(p).Some? ==> f(p).value.start == p && Located(t, f(p).value)
  }

  /** The scanner is such a matcher. */
  lemma MatchAtAnchored(t: string)
    ensures Anchored(t, (p: nat) => MatchAt(t, p))
  {
  }

  /** `finditer`'s search from `pos`: the match at the leftmost position at
      or after `pos` where `f` matches. */
  function FirstMatch(t: string, pos: nat, f: nat -> Option<RawMatch>): (r: Option<RawMatch>)
    requires pos <= |t|
    requires Anchored(t, f)
    ensures r.Some? ==> pos <= r.value.start && f(r.value.start) == r
    decreases |t| - pos
  {
    if f(pos).Some? then f(pos)
    else if pos == |t| then None
    else FirstMatch(t, pos + 1, f)
  }

  /** No match starts between `pos` and the one `FirstMatch` returns, and
      none at all when it returns nothing. */
  lemma {:induction false} FirstMatchLeftmost(t: string, pos: nat, f: nat -> Option<RawMatch>)
    requires pos <= |t|
    requires Anchored(t, f)
    ensures var r := FirstMatch(t, pos, f);
      && (r.Some? ==> forall q :: pos <= q < r.value.start ==> f(q).None?)
      && (r.None? ==> forall q :: pos <= q ==> f(q).None?)
    decreases |t| - pos
  {
    if f(pos).Some? {
      assert FirstMatch(t, pos, f) == f(pos);
    } else if pos < |t| {
      var r := FirstMatch(t, pos + 1, f);
      assert FirstMatch(t, pos, f) == r;
      FirstMatchLeftmost(t, pos + 1, f);
      if r.Some? {
        forall q | pos <= q < r.value.start
          ensures f(q).None?
        {
          if q > pos {
            assert pos + 1 <= q < r.value.start;
          }
        }
      } else {
        forall q | pos <= q
          ensures f(q).None?
        {
          if q > pos {
            assert pos + 1 <= q;
          }
        }
      }
    } else {
      assert FirstMatch(t, pos, f) == None;
    }
  }

  /** `finditer` from `pos`: each match is followed by the matches found
      from its end on. */
  function FindAll(t: string, pos: nat, f: nat -> Option<RawMatch>): (ms: seq<RawMatch>)
    requires pos <= |t|
    requires Anchored(t, f)
    decreases |t| - pos
  {
    match FirstMatch(t, pos, f)
    case None => []
    case Some(m) => [m] + FindAll(t, m.End(), f)
  }

  /** Each of `ms` is what `f` matches at its own start, at or after `pos`,
      and they come in left-to-right order without overlap. */
  predicate Scanned(t: string, pos: nat, ms: seq<RawMatch>, f: nat -> Option<RawMatch>) {
    && (forall k :: 0 <= k < |ms| ==> pos <= ms[k].start && f(ms[k].start) == Some(ms[k]))
    && (forall j, k :: 0 <= j < k < |ms| ==> ms[j].End() <= ms[k].start)
  }

  lemma {:induction false} FindAllScanned(t: string, pos: nat, f: nat -> Option<RawMatch>)
    requires pos <= |t|
    requires Anchored(t, f)
    ensures Scanned(t, pos, FindAll(t, pos, f), f)
    decreases |t| - pos
  {
    match FirstMatch(t, pos, f)
    case None =>
    case Some(m) =>
      var rest := FindAll(t, m.End(), f);
      FindAllScanned(t, m.End(), f);
      var ms := FindAll(t, pos, f);
      assert ms == [m] + rest;
      forall k | 0 <= k < |ms|
        ensures pos <= ms[k].start && f(ms[k].start) == Some(ms[k])
      {
        if k > 0 {
          assert ms[k] == rest[k - 1];
        }
      }
      forall j, k | 0 <= j < k < |ms|
        ensures ms[j].End() <= ms[k].start
      {
        assert ms[k] == rest[k - 1];
        if j > 0 {
          assert ms[j] == rest[j - 1];
        }
      }
  }

  /** Position `q` lies inside one of the matches `ms`. */
  predicate Covered(ms: seq<RawMatch>, q: nat) {
    exists k :: 0 <= k < |ms| && ms[k].start <= q < ms[k].End()
  }

  /** `finditer` misses nothing: wherever `f` matches from `pos` on, the
      position lies inside one of the reported matches (a match that starts
      inside an earlier one is skipped). */
  lemma {:induction false} FindAllExhaustive(t: string, pos: nat, f: nat -> Option<RawMatch>)
    requires pos <= |t|
    requires Anchored(t, f)
    ensures forall q :: pos <= q && f(q).Some? ==> Covered(FindAll(t, pos, f), q)
    decreases |t| - pos
  {
    FirstMatchLeftmost(t, pos, f);
    match FirstMatch(t, pos, f)
    case None =>
    case Some(m) =>
      var rest := FindAll(t, m.End(), f);
      FindAllExhaustive(t, m.End(), f);
      var ms := FindAll(t, pos, f);
      assert ms == [m] + rest;
      forall q | pos <= q && f(q).Some?
        ensures Covered(ms, q)
      {
        if q < m.End() {
          assert ms[0].start <= q < ms[0].End();
        } else {
          var k :| 0 <= k < |rest| && rest[k].start <= q < rest[k].End();
          assert ms[k + 1] == rest[k];
        }
      }
  }

  /** How many non-overlapping `Error Code` keywords a left-to-right scan
      from `i` finds. */
  function Occurrences(t: string, i: nat): (n: nat)
    requires i <= |t|
    decreases |t| - i
  {
    if i == |t| then 0
    else if OccursAt(t, i, ErrorCodeKw) then 1 + Occurrences(t, i + |ErrorCodeKw|)
    else Occurrences(t, i + 1)
  }

  /** Starting the scan later never finds more keywords. */
  lemma {:induction false} OccurrencesMonotone(t: string, i: nat, j: nat)
    requires i <= j <= |t|
    ensures Occurrences(t, j) <= Occurrences(t, i)
    decreases |t| - i, 1
  {
    if i < j {
      if !OccursAt(t, i, ErrorCodeKw) {
        OccurrencesMonotone(t, i + 1, j);
      } else if i + |ErrorCodeKw| <= j {
        OccurrencesMonotone(t, i + |ErrorCodeKw|, j);
      } else {
        OccurrencesWithin(t, j, i + |ErrorCodeKw|);
      }
    }
  }

  /** A scan from `j` finds at most one keyword more than a scan from a
      position `k` less than a keyword's length further on. */
  lemma {:induction false} OccurrencesWithin(t: string, j: nat, k: nat)
    requires j <= k <= j + |ErrorCodeKw| && k <= |t|
    ensures Occurrences(t, j) <= 1 + Occurrences(t, k)
    decreases |t| - j, 0
  {
    if j < k {
      if OccursAt(t, j, ErrorCodeKw) {
        OccurrencesMonotone(t, k, j + |ErrorCodeKw|);
      } else {
        OccurrencesWithin(t, j + 1, k);
      }
    }
  }

  /** `finditer` reports at most as many matches as there are
      non-overlapping `Error Code` keywords from `pos` on. */
  lemma {:induction false} FindAllCount(t: string, pos: nat, f: nat -> Option<RawMatch>)
    requires pos <= |t|
    requires Anchored(t, f)
    ensures |FindAll(t, pos, f)| <= Occurrences(t, pos)
    decreases |t| - pos
  {
    match FirstMatch(t, pos, f)
    case None =>
    case Some(m) =>
      assert FindAll(t, pos, f) == [m] + FindAll(t, m.End(), f);
      FindAllCount(t, m.End(), f);
      OccurrencesMonotone(t, m.start + |ErrorCodeKw|, m.End());
      assert Occurrences(t, m.start) == 1 + Occurrences(t, m.start + |ErrorCodeKw|);
      OccurrencesMonotone(t, pos, m.start);
  }

  /** Without an `Error Code` keyword from `pos` on there is no match. */
  lemma FindAllNeedsKeyword(t: string, pos: nat, f: nat -> Option<RawMatch>)
    requires pos <= |t|
    requires Anchored(t, f)
    requires forall q :: pos <= q <= |t| ==> !OccursAt(t, q, ErrorCodeKw)
    ensures FindAll(t, pos, f) == []
  {
    FirstMatchLeftmost(t, pos, f);
    if FirstMatch(t, pos, f).Some? {
      assert false;
    }
  }
}

=== FILE: procedure.dfy ===
/**
  The endpoint `search_isolation_procedure`: the input text is trimmed,
  the record pattern is run over it with `finditer`, and each match becomes
  an `ErrorFixDetail` holding its code, its description and its resolution
  steps.
 */
module Procedure {
  import opened Text
  import Steps
  import opened Extractor

  /** One error code's resolution block in the response. */
  datatype ErrorFixDetail = ErrorFixDetail(errorCode: string, description: string, resolutionSteps: seq<string>)

  /** The response: the trimmed input and the blocks found in it. */
  datatype Output = Output(originalText: string, matches: seq<ErrorFixDetail>)

  /** `s.strip()` leaves a non-empty word alone. */
  lemma TrimWord(s: string)
    requires s != [] && AllIn(s, 0, |s|, IsWord)
    ensures Trim(s) == s
  {
    WordNotDelim(s[0]);
    WordNotDelim(s[|s| - 1]);
    RunLengthExact(s, 0, 0, IsSpace);
    assert RunLengthBack(s, |s|, IsSpace) == 0;
  }

  /** The block one match gives: the code and the description with
      surrounding whitespace trimmed, and the tokenised steps. */
  function Detail(t: string, m: RawMatch): (detail: ErrorFixDetail)
    requires InText(t, m)
  {
    ErrorFixDetail(
      Trim(t[m.code.lo..m.code.hi]),
      Trim(t[m.desc.lo..m.desc.hi]),
      Steps.ResolutionSteps(t[m.steps.lo..m.steps.hi]))
  }

  /** A block's code is the `code` group exactly as written: a non-empty run
      of word characters, letter case kept, which `strip()` leaves alone. */
  lemma CodeAsWritten(t: string, m: RawMatch)
    requires IsRecordShape(t, m)
    ensures var c := Detail(t, m).errorCode;
      && c == t[m.code.lo..m.code.hi]
      && c != [] && forall i :: 0 <= i < |c| ==> IsWord(c[i])
  {
    TrimWord(t[m.code.lo..m.code.hi]);
  }

  /** A block's description is the `desc` group with its leading and
      trailing whitespace removed: it neither starts nor ends with
      whitespace, and it is empty only when the pattern had to give back a
      lone whitespace delimiter as the `desc` group. */
  lemma DescriptionTrimmed(t: string, m: RawMatch)
    requires IsRecordShape(t, m) && Chosen(t, m)
    ensures InText(t, m)
    ensures var g := t[m.desc.lo..m.desc.hi];
      var d := Detail(t, m).description;
      var a := RunLength(g, 0, IsSpace);
      && a + |d| <= |g| && d == g[a..a + |d|] && AllIn(g, a + |d|, |g|, IsSpace)
      && (d != [] ==> !IsSpace(d[0]) && !IsSpace(d[|d| - 1]))
      && (d == [] ==> m.desc.hi == m.desc.lo + 1 && IsSpace(t[m.desc.lo]))
  {
    var s := t[m.desc.lo..m.desc.hi];
    assert Detail(t, m).description == Trim(s);
    TrimSpec(s);
    DescriptionBlank(t, m.descKeyword, m.desc);
  }

  /** The `steps` group a block's steps are cut from holds no `Error Code`:
      the lookahead stops it at the first one. */
  lemma StepsBodyHasNoKeyword(t: string, m: RawMatch)
    requires IsRecordShape(t, m)
    ensures forall q: nat :: !OccursAt(t[m.steps.lo..m.steps.hi], q, ErrorCodeKw)
  {
    forall q: nat | OccursAt(t[m.steps.lo..m.steps.hi], q, ErrorCodeKw)
      ensures false
    {
      OccursInSlice(t, m.steps.lo, m.steps.hi, q, ErrorCodeKw);
    }
  }

  /** The description group trims to nothing only when it is a single
      whitespace character. */
  lemma DescriptionBlank(t: string, d: nat, desc: Span)
    requires desc.lo < desc.hi <= |t| && DescriptionChosen(t, d, desc)
    ensures Trim(t[desc.lo..desc.hi]) == [] ==> desc.hi == desc.lo + 1 && IsSpace(t[desc.lo])
  {
    var s := t[desc.lo..desc.hi];
    if Trim(s) == [] {
      assert s[0] == t[desc.lo];
    }
  }

  /** The matches `finditer` reports on `text`: matches of the whole
      pattern with the groups the backtracking matcher picks, in order and
      without overlap, at most one per `Error Code` keyword a left-to-right
      scan finds, and none missed. */
  function Records(text: string): (ms: seq<RawMatch>)
    ensures forall k :: 0 <= k < |ms| ==> MatchAt(text, ms[k].start) == Some(ms[k])
    ensures forall k :: 0 <= k < |ms| ==> IsRecordShape(text, ms[k]) && Chosen(text, ms[k])
    ensures forall j, k :: 0 <= j < k < |ms| ==> ms[j].End() <= ms[k].start
    ensures |ms| <= Occurrences(text, 0)
    ensures forall q :: MatchAt(text, q).Some? ==> Covered(ms, q)
  {
    var f := (p: nat) => MatchAt(text, p);
    MatchAtAnchored(text);
    FindAllScanned(text, 0, f);
    FindAllCount(text, 0, f);
    FindAllExhaustive(text, 0, f);
    var ms := FindAll(text, 0, f);
    forall k | 0 <= k < |ms|
      ensures MatchAt(text, ms[k].start) == Some(ms[k])
      ensures IsRecordShape(text, ms[k]) && Chosen(text, ms[k])
    {
      assert f(ms[k].start) == Some(ms[k]);
    }
    ms
  }

  /** The blocks of the matches `ms`, one per match and in the same order;
      every step in them has the shape the tokenizer promises. */
  function Details(text: string, ms: seq<RawMatch>): (ds: seq<ErrorFixDetail>)
    requires forall k :: 0 <= k < |ms| ==> InText(text, ms[k])
    ensures |ds| == |ms|
    ensures forall k, i :: 0 <= k < |ds| && 0 <= i < |ds[k].resolutionSteps| ==>
      Steps.StepShape(ds[k].resolutionSteps[i])
  {
    seq(|ms|, k requires 0 <= k < |ms| => Detail(text, ms[k]))
  }

  /** The endpoint's answer for the text `input`: `original_text` is the
      input with its leading and trailing whitespace removed. */
  function SearchIsolationProcedure(input: string): (out: Output)
    ensures var a := RunLength(input, 0, IsSpace);
      && a + |out.originalText| <= |input|
      && out.originalText == input[a..a + |out.originalText|]
      && AllIn(input, a + |out.originalText|, |input|, IsSpace)
    ensures out.originalText != [] ==>
      !IsSpace(out.originalText[0]) && !IsSpace(out.originalText[|out.originalText| - 1])
  {
    var text := Trim(input);
    TrimSpec(input);
    Output(text, Details(text, Records(text)))
  }

  /** Every reported block comes from a match of the whole pattern: its code
      is the match's `code` group copied as written, a non-empty run of word
      characters, and its steps have the shape the tokenizer promises. */
  lemma {:induction false} BlocksWellFormed(input: string)
    ensures var text := Trim(input);
      var ms := Records(text);
      var out := SearchIsolationProcedure(input);
      && |out.matches| == |ms|
      && forall k :: 0 <= k < |ms| ==>
        && InText(text, ms[k])
        && out.matches[k].errorCode == text[ms[k].code.lo..ms[k].code.hi]
        && out.matches[k].errorCode != []
        && (forall i :: 0 <= i < |out.matches[k].errorCode| ==> IsWord(out.matches[k].errorCode[i]))
        && (forall i :: 0 <= i < |out.matches[k].resolutionSteps| ==> Steps.StepShape(out.matches[k].resolutionSteps[i]))
  {
    var text := Trim(input);
    var ms := Records(text);
    var ds := Details(text, ms);
    assert SearchIsolationProcedure(input).matches == ds;
    BlocksOf(text, ms, ds);
  }

  /** The blocks `ds` of the matches `ms` have the matches' codes, which are
      non-empty words, and well-shaped steps. */
  lemma BlocksOf(t: string, ms: seq<RawMatch>, ds: seq<ErrorFixDetail>)
    requires forall k :: 0 <= k < |ms| ==> IsRecordShape(t, ms[k]) && InText(t, ms[k])
    requires |ds| == |ms| && forall k :: 0 <= k < |ds| ==> ds[k] == Detail(t, ms[k])
    ensures forall k :: 0 <= k < |ds| ==>
      && InText(t, ms[k])
      && ds[k].errorCode == t[ms[k].code.lo..ms[k].code.hi]
      && ds[k].errorCode != []
      && (forall i :: 0 <= i < |ds[k].errorCode| ==> IsWord(ds[k].errorCode[i]))
      && (forall i :: 0 <= i < |ds[k].resolutionSteps| ==> Steps.StepShape(ds[k].resolutionSteps[i]))
  {
    CodesAsWritten(t, ms);
    forall k | 0 <= k < |ds|
      ensures ds[k].errorCode == t[ms[k].code.lo..ms[k].code.hi]
      ensures ds[k].errorCode != []
      ensures forall i :: 0 <= i < |ds[k].errorCode| ==> IsWord(ds[k].errorCode[i])
      ensures forall i :: 0 <= i < |ds[k].resolutionSteps| ==> Steps.StepShape(ds[k].resolutionSteps[i])
    {
      assert ds[k] == Detail(t, ms[k]);
    }
  }

  /** `CodeAsWritten` for every match of a list. */
  lemma CodesAsWritten(t: string, ms: seq<RawMatch>)
    requires forall k :: 0 <= k < |ms| ==> IsRecordShape(t, ms[k]) && InText(t, ms[k])
    ensures forall k :: 0 <= k < |ms| ==>
      && Detail(t, ms[k]).errorCode == t[ms[k].code.lo..ms[k].code.hi]
      && Detail(t, ms[k]).errorCode != []
      && forall i :: 0 <= i < |Detail(t, ms[k]).errorCode| ==> IsWord(Detail(t, ms[k]).errorCode[i])
  {
    forall k | 0 <= k < |ms|
      ensures Detail(t, ms[k]).errorCode == t[ms[k].code.lo..ms[k].code.hi]
      ensures Detail(t, ms[k]).errorCode != []
      ensures forall i :: 0 <= i < |Detail(t, ms[k]).errorCode| ==> IsWord(Detail(t, ms[k]).errorCode[i])
    {
      CodeAsWritten(t, ms[k]);
    }
  }

  /** `d` is the `desc` group of `m` with its leading and trailing
      whitespace removed, as `desc.strip()` gives it: it neither begins nor
      ends with whitespace, and it is empty only when the group was a single
      whitespace delimiter given back. */
  predicate StrippedDescription(t: string, m: RawMatch, d: string) {
    && InText(t, m)
    && var g := t[m.desc.lo..m.desc.hi];
      var a := RunLength(g, 0, IsSpace);
      && a + |d| <= |g| && d == g[a..a + |d|] && AllIn(g, a + |d|, |g|, IsSpace)
      && (d != [] ==> !IsSpace(d[0]) && !IsSpace(d[|d| - 1]))
      && (d == [] ==> m.desc.hi == m.desc.lo + 1 && IsSpace(t[m.desc.lo]))
  }

  /** Every block's description is its match's `desc` group stripped of
      surrounding whitespace (`StrippedDescription`). */
  lemma {:induction false} ResponseDescriptions(input: string)
    ensures var text := Trim(input);
      var ms := Records(text);
      var out := SearchIsolationProcedure(input);
      && |out.matches| == |ms|
      && forall k :: 0 <= k < |ms| ==> StrippedDescription(text, ms[k], out.matches[k].description)
  {
    var text := Trim(input);
    var ms := Records(text);
    var ds := Details(text, ms);
    assert SearchIsolationProcedure(input).matches == ds;
    DescriptionsTrimmed(text, ms);
    forall k | 0 <= k < |ms|
      ensures StrippedDescription(text, ms[k], ds[k].description)
    {
      assert ds[k] == Detail(text, ms[k]);
    }
  }

  /** `DescriptionTrimmed` for every match of a list. */
  lemma DescriptionsTrimmed(t: string, ms: seq<RawMatch>)
    requires forall k :: 0 <= k < |ms| ==> IsRecordShape(t, ms[k]) && Chosen(t, ms[k]) && InText(t, ms[k])
    ensures forall k :: 0 <= k < |ms| ==> StrippedDescription(t, ms[k], Detail(t, ms[k]).description)
  {
    forall k | 0 <= k < |ms|
      ensures StrippedDescription(t, ms[k], Detail(t, ms[k]).description)
    {
      DescriptionTrimmed(t, ms[k]);
    }
  }

  /** Every block's resolution steps are the tokens of its match's `steps`
      group, and that group holds no `Error Code`. */
  lemma {:induction false} ResponseSteps(input: string)
    ensures var text := Trim(input);
      var ms := Records(text);
      var out := SearchIsolationProcedure(input);
      && |out.matches| == |ms|
      && forall k :: 0 <= k < |ms| ==>
        var body := text[ms[k].steps.lo..ms[k].steps.hi];
        && out.matches[k].resolutionSteps == Steps.ResolutionSteps(body)
        && forall q: nat :: !OccursAt(body, q, ErrorCodeKw)
  {
    var text := Trim(input);
    var ms := Records(text);
    var ds := Details(text, ms);
    assert SearchIsolationProcedure(input).matches == ds;
    StepsBodiesHaveNoKeyword(text, ms);
    forall k | 0 <= k < |ms|
      ensures var body := text[ms[k].steps.lo..ms[k].steps.hi];
        && ds[k].resolutionSteps == Steps.ResolutionSteps(body)
        && forall q: nat :: !OccursAt(body, q, ErrorCodeKw)
    {
      assert ds[k] == Detail(text, ms[k]);
    }
  }

  /** `StepsBodyHasNoKeyword` for every match of a list. */
  lemma StepsBodiesHaveNoKeyword(t: string, ms: seq<RawMatch>)
    requires forall m :: m in ms ==> IsRecordShape(t, m)
    ensures forall m :: m in ms ==>
      InText(t, m) && forall q: nat :: !OccursAt(t[m.steps.lo..m.steps.hi], q, ErrorCodeKw)
  {
    forall m | m in ms
      ensures InText(t, m) && forall q: nat :: !OccursAt(t[m.steps.lo..m.steps.hi], q, ErrorCodeKw)
    {
      StepsBodyHasNoKeyword(t, m);
    }
  }

  /** There are at most as many blocks as non-overlapping `Error Code`
      keywords in the trimmed text; in particular none when the text holds
      no `Error Code` at all (an empty input included). */
  lemma MatchCount(input: string)
    ensures var text := Trim(input);
      |SearchIsolationProcedure(input).matches| <= Occurrences(text, 0)
    ensures (forall q: nat :: !OccursAt(Trim(input), q, ErrorCodeKw)) ==>
      SearchIsolationProcedure(input).matches == []
  {
    var text := Trim(input);
    var ms := Records(text);
    assert SearchIsolationProcedure(input).matches == Details(text, ms);
    if forall q: nat :: !OccursAt(text, q, ErrorCodeKw) {
      NoKeywordNoOccurrences(text, 0);
    }
  }

  /** A scan that finds no keyword counts none. */
  lemma {:induction false} NoKeywordNoOccurrences(t: string, i: nat)
    requires i <= |t|
    requires forall q :: i <= q <= |t| ==> !OccursAt(t, q, ErrorCodeKw)
    ensures Occurrences(t, i) == 0
    decreases |t| - i
  {
    if i < |t| {
      NoKeywordNoOccurrences(t, i + 1);
    }
  }
}

=== FILE: steps.dfy ===
/**
  Step tokenisation of a record's `Resolution Steps` body: the body is
  trimmed, cut by `re.split(r'\n|\r|\d+\.', ...)`, fragments holding only
  whitespace are dropped, and each remaining fragment is stripped of
  spaces, dashes and periods.
 */
module Steps {
  import opened Text

  /** One piece of `re.split`'s work: a fragment and the separator that
      followed it (empty after the last fragment). */
  datatype Piece = Piece(fragment: string, separator: string)

  /** A text the split pattern `\n|\r|\d+\.` matches in full. */
  predicate IsSeparator(x: string) {
    || x == "\n"
    || x == "\r"
    || (|x| >= 2 && x[|x| - 1] == '.' && forall k :: 0 <= k < |x| - 1 ==> IsDigit(x[k]))
  }

  /** A digit at `k` with a period right after it. */
  predicate DigitThenPeriod(f: string, k: nat) {
    k + 1 < |f| && IsDigit(f[k]) && f[k + 1] == '.'
  }

  /** No position of `f` is the start of a separator. */
  predicate SeparatorFree(f: string) {
    && (forall k :: 0 <= k < |f| ==> f[k] != '\n' && f[k] != '\r')
    && (forall k: nat :: k < |f| ==> !DigitThenPeriod(f, k))
  }

  /** The characters `step.strip(" -.")` removes. */
  predicate IsPunct(c: char) {
    c == ' ' || c == '-' || c == '.'
  }

  /** Shape of an emitted step: no separator inside it, and no space, dash or
      period at either end. */
  predicate StepShape(x: string) {
    SeparatorFree(x) && (x != [] ==> !IsPunct(x[0]) && !IsPunct(x[|x| - 1]))
  }

  /** The filter `if step.strip()`: the fragment holds a non-whitespace character. */
  predicate Kept(f: string) {
    Trim(f) != []
  }

  /** Length of the separator the split pattern matches at the start of `s`,
      0 when it matches nothing there. The alternatives are tried in order and
      `\d+` is greedy, so a digit run counts only when a period follows it. */
  function SeparatorAt(s: string): (n: nat)
    ensures n <= |s|
    ensures n > 0 ==> IsSeparator(s[..n])
    ensures n == 0 ==> forall m :: 0 < m <= |s| ==> !IsSeparator(s[..m])
  {
    if s == [] then 0
    else if s[0] == '\n' || s[0] == '\r' then 1
    else
      var d := RunLength(s, 0, IsDigit);
      if 0 < d < |s| && s[d] == '.' then d + 1
      else
        NoSeparatorAt(s, d);
        0
  }

  /** Where the text starts with neither a newline nor a carriage return,
      and its leading digit run of length `d` is empty or not followed by a
      period, no separator starts. */
  lemma NoSeparatorAt(s: string, d: nat)
    requires s != [] && s[0] != '\n' && s[0] != '\r'
    requires d == RunLength(s, 0, IsDigit)
    requires !(0 < d < |s| && s[d] == '.')
    ensures forall m :: 0 < m <= |s| ==> !IsSeparator(s[..m])
  {
    forall m | 0 < m <= |s|
      ensures !IsSeparator(s[..m])
    {
      if forall k :: 0 <= k < m - 1 ==> IsDigit(s[k]) {
        RunLengthAtLeast(s, 0, m - 1, IsDigit);
      }
    }
  }

  /** Glues pieces back together, separators included. */
  function Concat(ps: seq<Piece>): (s: string) {
    if ps == [] then [] else ps[0].fragment + ps[0].separator + Concat(ps[1..])
  }

  /** Adds `a` to the front of the first fragment. */
  function PrependFragment(a: string, ps: seq<Piece>): (qs: seq<Piece>)
    requires ps != []
  {
    [Piece(a + ps[0].fragment, ps[0].separator)] + ps[1..]
  }

  /** The pieces are a well-formed result of `re.split`: every separator but
      the last (empty) one is a text the pattern matches in full, and no
      fragment holds a place where it would match. */
  predicate WellSplit(ps: seq<Piece>) {
    && |ps| >= 1
    && ps[|ps| - 1].separator == []
    && (forall k :: 0 <= k < |ps| - 1 ==> IsSeparator(ps[k].separator))
    && (forall k :: 0 <= k < |ps| ==> SeparatorFree(ps[k].fragment))
    && (forall k :: 0 <= k < |ps| - 1 ==> Leftmost(ps[k]))
  }

  /** The separator was found as early as possible: a digit run that ends a
      fragment would have started the separator `\d+\.` after it. */
  predicate Leftmost(p: Piece) {
    p.fragment == [] || p.separator == [] || !IsDigit(p.fragment[|p.fragment| - 1]) || !IsDigit(p.separator[0])
  }

  /** `re.split(r'\n|\r|\d+\.', s)` with each separator kept beside the
      fragment before it. The search restarts after each separator; where no
      separator starts, the character joins the current fragment. */
  function SplitPieces(s: string): (ps: seq<Piece>)
    ensures |ps| >= 1
    decreases |s|
  {
    if s == [] then [Piece([], [])]
    else
      var n := SeparatorAt(s);
      if n > 0 then [Piece([], s[..n])] + SplitPieces(s[n..])
      else PrependFragment([s[0]], SplitPieces(s[1..]))
  }

  /** The split is well formed and lossless: gluing the pieces back gives
      the text, every separator is one the pattern matches in full, and no
      fragment holds a place where the pattern would match. */
  lemma {:induction false} SplitPiecesWellFormed(s: string)
    ensures WellSplit(SplitPieces(s))
    ensures SplitPieces(s)[0].fragment <= s
    ensures Concat(SplitPieces(s)) == s
    decreases |s|
  {
    if s != [] {
      var n := SeparatorAt(s);
      if n > 0 {
        SplitPiecesWellFormed(s[n..]);
        SeparatorPiece(s, n, SplitPieces(s[n..]));
      } else {
        SplitPiecesWellFormed(s[1..]);
        PlainPiece(s, SplitPieces(s[1..]));
      }
    }
  }

  lemma SeparatorPiece(s: string, n: nat, rest: seq<Piece>)
    requires 0 < n <= |s| && IsSeparator(s[..n])
    requires WellSplit(rest) && Concat(rest) == s[n..]
    ensures WellSplit([Piece([], s[..n])] + rest)
    ensures Concat([Piece([], s[..n])] + rest) == s
  {
    var ps := [Piece([], s[..n])] + rest;
    assert ps[1..] == rest;
    assert s[..n] + s[n..] == s;
    forall k | 0 <= k < |ps|
      ensures SeparatorFree(ps[k].fragment)
    {
      if k > 0 {
        assert ps[k] == rest[k - 1];
      }
    }
  }

  lemma PlainPiece(s: string, rest: seq<Piece>)
    requires s != [] && SeparatorAt(s) == 0
    requires WellSplit(rest) && rest[0].fragment <= s[1..] && Concat(rest) == s[1..]
    ensures WellSplit(PrependFragment([s[0]], rest))
    ensures PrependFragment([s[0]], rest)[0].fragment <= s
    ensures Concat(PrependFragment([s[0]], rest)) == s
  {
    PrependShape([s[0]], rest);
    ConcatPrepend([s[0]], rest);
    assert [s[0]] + s[1..] == s;
    PlainPieceFree(s, rest);
    PlainPieceLeftmost(s, rest);
  }

  /** Prepending to the first fragment leaves the separators and the other
      pieces alone. */
  lemma PrependShape(a: string, ps: seq<Piece>)
    requires ps != []
    ensures var qs := PrependFragment(a, ps);
      && |qs| == |ps|
      && qs[0] == Piece(a + ps[0].fragment, ps[0].separator)
      && forall k :: 0 < k < |ps| ==> qs[k] == ps[k]
  {
  }

  lemma PlainPieceFree(s: string, rest: seq<Piece>)
    requires s != [] && SeparatorAt(s) == 0 && rest != []
    requires rest[0].fragment <= s[1..]
    requires forall k :: 0 <= k < |rest| ==> SeparatorFree(rest[k].fragment)
    ensures forall k :: 0 <= k < |rest| ==> SeparatorFree(PrependFragment([s[0]], rest)[k].fragment)
  {
    var f := rest[0].fragment;
    assert f != [] ==> f[0] == s[1];
    PrependFree(s[0], f);
    PrependShape([s[0]], rest);
  }

  lemma PlainPieceLeftmost(s: string, rest: seq<Piece>)
    requires s != [] && SeparatorAt(s) == 0
    requires WellSplit(rest) && rest[0].fragment <= s[1..] && Concat(rest) == s[1..]
    ensures forall k :: 0 <= k < |rest| - 1 ==> Leftmost(PrependFragment([s[0]], rest)[k])
  {
    var ps := PrependFragment([s[0]], rest);
    PrependShape([s[0]], rest);
    if |rest| > 1 {
      LeftmostFront(s, rest);
    }
    forall k | 0 < k < |rest| - 1
      ensures Leftmost(ps[k])
    {
      assert ps[k] == rest[k];
    }
  }

  /** The first piece stays leftmost once `s[0]` joins its fragment. */
  lemma LeftmostFront(s: string, rest: seq<Piece>)
    requires s != [] && SeparatorAt(s) == 0 && |rest| > 1
    requires Leftmost(rest[0]) && IsSeparator(rest[0].separator)
    requires Concat(rest) == s[1..]
    ensures Leftmost(PrependFragment([s[0]], rest)[0])
  {
    var f := rest[0].fragment;
    var sep := rest[0].separator;
    assert PrependFragment([s[0]], rest)[0] == Piece([s[0]] + f, sep);
    if f == [] {
      assert [s[0]] + f == [s[0]];
      assert s[1..] == sep + Concat(rest[1..]);
      LeftmostAfterChar(s, sep);
    } else {
      assert ([s[0]] + f)[|f|] == f[|f| - 1];
    }
  }

  /** A character where no separator starts, followed by a separator, does
      not end with a digit that the separator could have extended. */
  lemma LeftmostAfterChar(s: string, sep: string)
    requires s != [] && SeparatorAt(s) == 0
    requires IsSeparator(sep) && sep <= s[1..]
    ensures Leftmost(Piece([s[0]], sep))
  {
    if IsDigit(s[0]) && IsDigit(sep[0]) {
      DigitRunThenPeriod(s, sep);
    }
  }

  /** A digit followed by a `\d+\.` separator starts a longer separator. */
  lemma DigitRunThenPeriod(s: string, sep: string)
    requires s != [] && IsDigit(s[0]) && sep <= s[1..]
    requires IsSeparator(sep) && sep != [] && IsDigit(sep[0])
    ensures SeparatorAt(s) == |sep| + 1
  {
    assert sep != "\n" && sep != "\r";
    assert forall k :: 0 <= k < |sep| ==> s[k + 1] == sep[k];
    RunLengthExact(s, 0, |sep|, IsDigit);
  }

  lemma PrependFree(c: char, f: string)
    requires c != '\n' && c != '\r' && SeparatorFree(f)
    requires IsDigit(c) && f != [] ==> f[0] != '.'
    ensures SeparatorFree([c] + f)
  {
    var g := [c] + f;
    forall k: nat | k < |g|
      ensures !DigitThenPeriod(g, k)
    {
      if 0 < k < |g| - 1 {
        assert g[k] == f[k - 1] && g[k + 1] == f[k];
        assert !DigitThenPeriod(f, k - 1);
      }
    }
  }

  lemma ConcatPrepend(a: string, ps: seq<Piece>)
    requires ps != []
    ensures Concat(PrependFragment(a, ps)) == a + Concat(ps)
  {
    var qs := PrependFragment(a, ps);
    assert qs[1..] == ps[1..];
  }

  /** `re.split` is determined by its shape: the only well-formed, lossless
      split of `s` is the one `SplitPieces` computes. */
  lemma {:induction false} SplitUnique(s: string, ps: seq<Piece>)
    requires WellSplit(ps) && Concat(ps) == s
    ensures SplitPieces(s) == ps
    decreases |s|, 1
  {
    var f := ps[0].fragment;
    var sep := ps[0].separator;
    assert Concat(ps) == f + sep + Concat(ps[1..]);
    if f == [] && |ps| == 1 {
      assert ps == [Piece([], [])];
    } else if f == [] {
      SplitUniqueSeparator(s, ps);
    } else {
      SplitUniquePlain(s, ps);
    }
  }

  lemma {:induction false} SplitUniqueSeparator(s: string, ps: seq<Piece>)
    requires WellSplit(ps) && Concat(ps) == s
    requires ps[0].fragment == [] && |ps| > 1
    ensures SplitPieces(s) == ps
    decreases |s|, 0
  {
    var sep := ps[0].separator;
    assert Concat(ps) == sep + Concat(ps[1..]);
    SeparatorAtSeparator(s, sep);
    var n := |sep|;
    assert s[..n] == sep && s[n..] == Concat(ps[1..]);
    WellSplitTail(ps);
    SplitUnique(s[n..], ps[1..]);
    assert ps == [Piece([], s[..n])] + ps[1..];
  }

  lemma {:induction false} SplitUniquePlain(s: string, ps: seq<Piece>)
    requires WellSplit(ps) && Concat(ps) == s
    requires ps[0].fragment != []
    ensures SplitPieces(s) == ps
    decreases |s|, 0
  {
    var f := ps[0].fragment;
    var sep := ps[0].separator;
    assert Concat(ps) == f + sep + Concat(ps[1..]);
    FragmentStartsPlain(s, ps);
    var qs := [Piece(f[1..], sep)] + ps[1..];
    WellSplitDropChar(ps);
    assert qs[1..] == ps[1..];
    assert Concat(qs) == f[1..] + sep + Concat(ps[1..]);
    assert s[1..] == Concat(qs);
    SplitUnique(s[1..], qs);
    assert SplitPieces(s) == PrependFragment([s[0]], qs);
    assert [s[0]] + f[1..] == f;
    assert ps == [Piece(f, sep)] + ps[1..];
  }

  lemma WellSplitTail(ps: seq<Piece>)
    requires WellSplit(ps) && |ps| > 1
    ensures WellSplit(ps[1..])
  {
    var qs := ps[1..];
    assert forall k :: 0 <= k < |qs| ==> qs[k] == ps[k + 1];
  }

  lemma WellSplitDropChar(ps: seq<Piece>)
    requires WellSplit(ps) && ps[0].fragment != []
    ensures WellSplit([Piece(ps[0].fragment[1..], ps[0].separator)] + ps[1..])
  {
    var f := ps[0].fragment;
    var qs := [Piece(f[1..], ps[0].separator)] + ps[1..];
    SliceSeparatorFree(f, 1, |f| - 1);
    assert f[1..|f|] == f[1..];
    assert forall k :: 0 < k < |qs| ==> qs[k] == ps[k];
  }

  /** A well-formed separator at the start of `s` is the one the pattern finds. */
  lemma SeparatorAtSeparator(s: string, sep: string)
    requires IsSeparator(sep) && sep <= s
    ensures SeparatorAt(s) == |sep|
  {
    if sep != "\n" && sep != "\r" {
      assert forall k :: 0 <= k < |sep| ==> s[k] == sep[k];
      RunLengthExact(s, 0, |sep| - 1, IsDigit);
    }
  }

  /** No separator starts where a non-empty first fragment does. */
  lemma FragmentStartsPlain(s: string, ps: seq<Piece>)
    requires WellSplit(ps) && Concat(ps) == s && ps[0].fragment != []
    ensures SeparatorAt(s) == 0
  {
    var f := ps[0].fragment;
    var sep := ps[0].separator;
    assert s == f + sep + Concat(ps[1..]);
    assert forall k :: 0 <= k < |f| ==> s[k] == f[k];
    var d := RunLength(s, 0, IsDigit);
    assert 0 < d < |f| ==> IsDigit(f[d - 1]) && !DigitThenPeriod(f, d - 1);
    if |ps| > 1 {
      assert s[|f|] == sep[0];
      assert IsDigit(f[|f| - 1]) ==> !IsDigit(sep[0]);
      assert !(IsDigit(s[|f| - 1]) && IsDigit(s[|f|]));
      assert d <= |f|;
      assert sep[0] != '.';
    } else {
      assert |s| == |f|;
    }
  }

  /** The fragments `re.split` returns: always at least one, and none of
      them holds a separator. */
  function Fragments(s: string): (fs: seq<string>)
    ensures |fs| >= 1
    ensures forall k :: 0 <= k < |fs| ==> SeparatorFree(fs[k])
  {
    var ps := SplitPieces(s);
    SplitPiecesWellFormed(s);
    seq(|ps|, k requires 0 <= k < |ps| => ps[k].fragment)
  }

  /** The list comprehension over the fragments: keep the fragments with a
      non-whitespace character, stripped of spaces, dashes and periods. */
  function StepsOf(frags: seq<string>): (steps: seq<string>)
    requires forall k :: 0 <= k < |frags| ==> SeparatorFree(frags[k])
    ensures |steps| <= |frags|
    ensures forall i :: 0 <= i < |steps| ==> StepShape(steps[i])
  {
    if frags == [] then []
    else
      var rest := StepsOf(frags[1..]);
      if Kept(frags[0]) then
        var x := Strip(frags[0], IsPunct);
        StrippedShape(frags[0]);
        ConsShape(x, rest);
        [x] + rest
      else rest
  }

  /** A separator-free fragment stripped of spaces, dashes and periods has
      the shape of a step. */
  lemma StrippedShape(f: string)
    requires SeparatorFree(f)
    ensures StepShape(Strip(f, IsPunct))
  {
    var x := Strip(f, IsPunct);
    SliceSeparatorFree(f, RunLength(f, 0, IsPunct), |x|);
  }

  /** A step-shaped string in front of step-shaped strings. */
  lemma ConsShape(x: string, rest: seq<string>)
    requires StepShape(x) && forall i :: 0 <= i < |rest| ==> StepShape(rest[i])
    ensures forall i :: 0 <= i < |[x] + rest| ==> StepShape(([x] + rest)[i])
  {
    forall i | 0 <= i < |[x] + rest|
      ensures StepShape(([x] + rest)[i])
    {
      if i > 0 { assert ([x] + rest)[i] == rest[i - 1]; }
    }
  }

  /** The resolution steps of one record from its raw `steps` group. */
  function ResolutionSteps(raw: string): (steps: seq<string>)
    ensures forall i :: 0 <= i < |steps| ==> StepShape(steps[i])
  {
    StepsOf(Fragments(Trim(raw)))
  }

  /** The filter keeps exactly the fragments holding a non-whitespace character. */
  lemma KeptIffNonSpace(f: string)
    ensures Kept(f) <==> exists k :: 0 <= k < |f| && !IsSpace(f[k])
  {
  }

  /** Indices, from `i` on, of the fragments the filter keeps, in increasing order. */
  function KeptFrom(frags: seq<string>, i: nat): (idx: seq<nat>)
    requires i <= |frags|
    ensures forall j :: 0 <= j < |idx| ==> i <= idx[j] < |frags| && Kept(frags[idx[j]])
    ensures forall j, j' :: 0 <= j < j' < |idx| ==> idx[j] < idx[j']
    ensures forall k :: i <= k < |frags| && Kept(frags[k]) ==> k in idx
    decreases |frags| - i
  {
    if i == |frags| then []
    else
      var rest := KeptFrom(frags, i + 1);
      if Kept(frags[i]) then [i] + rest else rest
  }

  /** The steps are the kept fragments, in their original order, each with
      spaces, dashes and periods stripped from both ends. */
  lemma {:induction false} StepsAreKeptFragments(frags: seq<string>, i: nat)
    requires i <= |frags|
    requires forall k :: 0 <= k < |frags| ==> SeparatorFree(frags[k])
    ensures var steps := StepsOf(frags[i..]);
      var idx := KeptFrom(frags, i);
      && |steps| == |idx|
      && forall j :: 0 <= j < |steps| ==> steps[j] == Strip(frags[idx[j]], IsPunct)
    decreases |frags| - i
  {
    if i < |frags| {
      StepsAreKeptFragments(frags, i + 1);
      var rest := StepsOf(frags[i + 1..]);
      var idx := KeptFrom(frags, i + 1);
      assert frags[i..][1..] == frags[i + 1..];
      var x := Strip(frags[i], IsPunct);
      var head := if Kept(frags[i]) then [x] else [];
      var here := if Kept(frags[i]) then [i] else [];
      assert StepsOf(frags[i..]) == head + rest;
      assert KeptFrom(frags, i) == here + idx;
      PointwiseCons(frags, i, Kept(frags[i]), rest, idx);
    }
  }

  /** Putting one fragment's step, or nothing, in front of steps that match
      their indices keeps steps and indices matched. */
  lemma PointwiseCons(frags: seq<string>, i: nat, kept: bool, rest: seq<string>, idx: seq<nat>)
    requires i < |frags| && |rest| == |idx|
    requires forall j :: 0 <= j < |idx| ==> idx[j] < |frags| && rest[j] == Strip(frags[idx[j]], IsPunct)
    ensures var head := if kept then [Strip(frags[i], IsPunct)] else [];
      var here := if kept then [i] else [];
      && |head + rest| == |here + idx|
      && forall j :: 0 <= j < |head + rest| ==> (head + rest)[j] == Strip(frags[(here + idx)[j]], IsPunct)
  {
  }

  /** The steps of a body, by position: step `j` comes from the `j`-th kept
      fragment of the trimmed body. */
  lemma ResolutionStepsSelect(raw: string)
    ensures var fs := Fragments(Trim(raw));
      var idx := KeptFrom(fs, 0);
      var steps := ResolutionSteps(raw);
      && |steps| == |idx|
      && forall j :: 0 <= j < |steps| ==> steps[j] == Strip(fs[idx[j]], IsPunct)
  {
    var b := Trim(raw);
    var fs := Fragments(b);
    SplitPiecesWellFormed(b);
    assert forall k :: 0 <= k < |fs| ==> SeparatorFree(fs[k]);
    StepsAreKeptFragments(fs, 0);
    assert fs[0..] == fs;
  }

  /** Joins steps with a newline, as `"\n".join(steps)`. */
  function Join(xs: seq<string>): (s: string) {
    if xs == [] then []
    else if |xs| == 1 then xs[0]
    else xs[0] + "\n" + Join(xs[1..])
  }

  /** One step of `SplitPieces` where no separator starts. */
  lemma SplitPlainStep(s: string)
    requires s != [] && SeparatorAt(s) == 0
    ensures SplitPieces(s) == PrependFragment([s[0]], SplitPieces(s[1..]))
  {
  }

  lemma PrependEmpty(ps: seq<Piece>)
    requires ps != []
    ensures PrependFragment([], ps) == ps
  {
    assert [] + ps[0].fragment == ps[0].fragment;
    assert [ps[0]] + ps[1..] == ps;
  }

  lemma PrependTwice(x: string, y: string, ps: seq<Piece>)
    requires ps != []
    ensures PrependFragment(x, PrependFragment(y, ps)) == PrependFragment(x + y, ps)
  {
    assert PrependFragment(y, ps)[1..] == ps[1..];
    assert x + (y + ps[0].fragment) == (x + y) + ps[0].fragment;
  }

  /** A separator-free text followed by a newline, carriage return or nothing
      is the front of the first fragment. */
  lemma {:induction false} SplitFreePrefix(a: string, rest: string)
    requires SeparatorFree(a)
    requires rest == [] || rest[0] == '\n' || rest[0] == '\r'
    ensures SplitPieces(a + rest) == PrependFragment(a, SplitPieces(rest))
    decreases |a|
  {
    var ps := SplitPieces(rest);
    if a == [] {
      assert [] + rest == rest;
      PrependEmpty(ps);
    } else {
      var s := a + rest;
      var b := a[1..];
      SliceSeparatorFree(a, 1, |a| - 1);
      ConsParts(a, rest);
      SplitFreePrefix(b, rest);
      FreeStartsPlain(a, rest);
      SplitPlainStep(s);
      PrependTwice([a[0]], b, ps);
    }
  }

  lemma ConsParts(a: string, rest: string)
    requires a != []
    ensures (a + rest)[0] == a[0]
    ensures (a + rest)[1..] == a[1..] + rest
    ensures [a[0]] + a[1..] == a
    ensures a[1..|a|] == a[1..]
  {
  }

  /** No separator starts inside a separator-free text that a newline,
      carriage return or the end follows. */
  lemma FreeStartsPlain(a: string, rest: string)
    requires SeparatorFree(a) && a != []
    requires rest == [] || rest[0] == '\n' || rest[0] == '\r'
    ensures SeparatorAt(a + rest) == 0
  {
    var s := a + rest;
    var d := RunLength(s, 0, IsDigit);
    assert forall k :: 0 <= k < |a| ==> s[k] == a[k];
    assert |a| < |s| ==> s[|a|] == rest[0] && !IsDigit(s[|a|]) && s[|a|] != '.';
    assert 0 < d < |a| ==> IsDigit(a[d - 1]) && !DigitThenPeriod(a, d - 1);
  }

  /** Joining separator-free texts with newlines and splitting again gives
      the texts back. */
  lemma {:induction false} SplitJoin(xs: seq<string>)
    requires xs != []
    requires forall i :: 0 <= i < |xs| ==> SeparatorFree(xs[i])
    ensures Fragments(Join(xs)) == xs
  {
    if |xs| == 1 {
      SplitSingle(xs[0]);
    } else {
      var tail := Join(xs[1..]);
      var nl := "\n" + tail;
      SplitJoin(xs[1..]);
      SplitFreePrefix(xs[0], nl);
      SplitNewline(tail);
      JoinCons(xs);
      PrependEmptyFront(xs[0], "\n", SplitPieces(tail));
      FragmentsCons(Join(xs), xs[0], "\n", tail);
      SeqCons(xs);
    }
  }

  lemma SeqCons<T>(xs: seq<T>)
    requires xs != []
    ensures [xs[0]] + xs[1..] == xs
  {
  }

  lemma JoinCons(xs: seq<string>)
    requires |xs| > 1
    ensures Join(xs) == xs[0] + ("\n" + Join(xs[1..]))
  {
  }

  lemma PrependEmptyFront(x: string, sep: string, ts: seq<Piece>)
    ensures PrependFragment(x, [Piece([], sep)] + ts) == [Piece(x, sep)] + ts
  {
    assert x + [] == x;
    assert ([Piece([], sep)] + ts)[1..] == ts;
  }

  lemma SplitNewline(tail: string)
    ensures SplitPieces("\n" + tail) == [Piece([], "\n")] + SplitPieces(tail)
  {
    var nl := "\n" + tail;
    assert nl[1..] == tail;
    assert nl[..1] == "\n";
    SeparatorAtSeparator(nl, "\n");
  }

  lemma SplitSingle(x: string)
    requires SeparatorFree(x)
    ensures SplitPieces(x) == [Piece(x, [])]
    ensures Fragments(x) == [x]
  {
    SplitFreePrefix(x, []);
    assert x + [] == x;
    assert SplitPieces(x) == [Piece(x, [])];
  }

  lemma FragmentsCons(s: string, x: string, sep: string, tail: string)
    requires SplitPieces(s) == [Piece(x, sep)] + SplitPieces(tail)
    ensures Fragments(s) == [x] + Fragments(tail)
  {
    var fs := Fragments(s);
    var ft := Fragments(tail);
    var ps := SplitPieces(s);
    var pt := SplitPieces(tail);
    assert |fs| == 1 + |ft|;
    forall k | 0 <= k < |fs|
      ensures fs[k] == ([x] + ft)[k]
    {
      if k == 0 {
        assert fs[0] == x;
      } else {
        assert ps[k] == pt[k - 1];
        assert fs[k] == ps[k].fragment;
        assert ft[k - 1] == pt[k - 1].fragment;
      }
    }
  }

  /** Steps that can be re-tokenised without change: each holds a
      non-whitespace character and has the shape of an emitted step, and the
      joined text has no whitespace at either end for `strip()` to remove. */
  predicate Rejoinable(xs: seq<string>) {
    && (forall i :: 0 <= i < |xs| ==> StepShape(xs[i]) && Kept(xs[i]))
    && (xs != [] && xs[0] != [] ==> !IsSpace(xs[0][0]))
    && (xs != [] && xs[|xs| - 1] != [] ==> !IsSpace(xs[|xs| - 1][|xs[|xs| - 1]| - 1]))
  }

  /** Re-tokenising the newline-joined steps gives the same steps, for step
      lists with no empty or blank step and no whitespace at the outer ends. */
  lemma RetokenizeJoined(xs: seq<string>)
    requires Rejoinable(xs)
    ensures ResolutionSteps(Join(xs)) == xs
  {
    if xs != [] {
      var j := Join(xs);
      JoinEnds(xs);
      assert Trim(j) == j;
      SplitJoin(xs);
      StepsOfSteps(xs);
    }
  }

  lemma {:induction false} JoinEnds(xs: seq<string>)
    requires xs != [] && forall i :: 0 <= i < |xs| ==> xs[i] != []
    ensures |Join(xs)| > 0
    ensures Join(xs)[0] == xs[0][0]
    ensures Join(xs)[|Join(xs)| - 1] == xs[|xs| - 1][|xs[|xs| - 1]| - 1]
  {
    if |xs| > 1 {
      var t := xs[1..];
      assert forall i :: 0 <= i < |t| ==> t[i] == xs[i + 1];
      JoinEnds(t);
      assert t[|t| - 1] == xs[|xs| - 1];
      assert Join(xs) == (xs[0] + "\n") + Join(t);
    }
  }

  lemma {:induction false} StepsOfSteps(xs: seq<string>)
    requires forall i :: 0 <= i < |xs| ==> SeparatorFree(xs[i])
    requires forall i :: 0 <= i < |xs| ==> StepShape(xs[i]) && Kept(xs[i])
    ensures StepsOf(xs) == xs
  {
    if xs != [] {
      StripNothing(xs[0], IsPunct);
      StepsOfSteps(xs[1..]);
      assert StepsOf(xs) == [xs[0]] + StepsOf(xs[1..]);
      SeqCons(xs);
    }
  }

  /** Stripping a text that neither begins nor ends with a stripped character
      leaves it alone. */
  lemma StripNothing(x: string, p: char -> bool)
    requires x != [] ==> !p(x[0]) && !p(x[|x| - 1])
    ensures Strip(x, p) == x
  {
    if x != [] {
      RunLengthExact(x, 0, 0, p);
    }
  }

  lemma StepsOfCons(f: string, rest: seq<string>)
    requires SeparatorFree(f)
    requires forall k :: 0 <= k < |rest| ==> SeparatorFree(rest[k])
    ensures StepsOf([f] + rest) == (if Kept(f) then [Strip(f, IsPunct)] else []) + StepsOf(rest)
  {
    assert ([f] + rest)[1..] == rest;
  }

  /** The fragment `-` holds a non-whitespace character, so it is kept, and
      stripping it leaves an empty step. */
  lemma DashGivesEmptyStep()
    ensures ResolutionSteps("a\n-") == ["a", ""]
  {
    var s := "a\n-";
    StripNothing(s, IsSpace);
    DashFragments();
    DashSteps();
  }

  lemma DashFragments()
    ensures Fragments("a\n-") == ["a", "-"]
  {
    var s := "a\n-";
    RunLengthExact(s, 0, 0, IsDigit);
    assert SeparatorAt(s) == 0;
    SplitPlainStep(s);
    assert s[1..] == "\n-";
    NewlineDashPieces();
    PrependEmptyFront("a", "\n", [Piece("-", [])]);
    FragmentsCons(s, "a", "\n", "-");
  }

  lemma NewlineDashPieces()
    ensures SplitPieces("\n-") == [Piece([], "\n"), Piece("-", [])]
    ensures SplitPieces("-") == [Piece("-", [])]
  {
    assert "\n-" == "\n" + "-";
    SplitNewline("-");
    SplitSingle("-");
  }

  lemma DashSteps()
    ensures StepsOf(["a", "-"]) == ["a", ""]
  {
    StripNothing("a", IsSpace);
    StripNothing("a", IsPunct);
    assert SeparatorFree("a");
    DashStep();
    StepsOfCons("a", ["-"]);
  }

  lemma DashStep()
    ensures StepsOf(["-"]) == [""]
  {
    StripNothing("-", IsSpace);
    assert AllIn("-", 0, 1, IsPunct);
    assert SeparatorFree("-");
    StepsOfCons("-", []);
  }

  /** Re-tokenising is not the identity on every output: the empty step of
      `a\n-` vanishes when the steps are joined and split again. */
  lemma RetokenizeDropsEmptyStep()
    ensures ResolutionSteps(Join(ResolutionSteps("a\n-"))) == ["a"]
  {
    DashGivesEmptyStep();
    JoinCons(["a", ""]);
    assert Join(["a", ""]) == "a\n";
    TrailingNewlineTrimmed();
  }

  lemma TrailingNewlineTrimmed()
    ensures ResolutionSteps("a\n") == ["a"]
  {
    var j := "a\n";
    RunLengthExact(j, 0, 0, IsSpace);
    assert Trim(j) == "a";
    SplitSingle("a");
    StripNothing("a", IsSpace);
    StripNothing("a", IsPunct);
    StepsOfCons("a", []);
  }

  lemma SliceSeparatorFree(f: string, a: nat, n: nat)
    requires SeparatorFree(f) && a + n <= |f|
    ensures SeparatorFree(f[a..a + n])
  {
    var g := f[a..a + n];
    forall k: nat | k < |g|
      ensures !DigitThenPeriod(g, k)
    {
      if k < |g| - 1 {
        assert g[k] == f[a + k] && g[k + 1] == f[a + k + 1];
        assert !DigitThenPeriod(f, a + k);
      }
    }
  }
}

=== FILE: text.dfy ===
/**
  Character classes and small scanning primitives shared by the record
  scanner and the step tokenizer: the `\s`, `\w`, `\d` classes, the
  case-insensitive comparison used under `re.IGNORECASE`, maximal runs,
  first occurrences, and Python's `str.strip`.
 */
module Text {

  datatype Option<T> = None | Some(value: T)

  /** A half-open range `[lo, hi)` of positions in a text. */
  datatype Span = Span(lo: nat, hi: nat)

  /** Python's `str.isspace()`; a `str` pattern's `\s` matches exactly these
      characters, and `str.strip()` with no argument removes them. */
  predicate IsSpace(c: char) {
    || ('\t' <= c <= '\r')
    || ('\U{1c}' <= c <= ' ')
    || c == '\U{85}' || c == '\U{a0}' || c == '\U{1680}'
    || ('\U{2000}' <= c <= '\U{200a}')
    || c == '\U{2028}' || c == '\U{2029}' || c == '\U{202f}' || c == '\U{205f}'
    || c == '\U{3000}'
  }

  /** `\w`, restricted to ASCII. */
  predicate IsWord(c: char) {
    ('a' <= c <= 'z') || ('A' <= c <= 'Z') || ('0' <= c <= '9') || c == '_'
  }

  /** `\d`, restricted to ASCII. */
  predicate IsDigit(c: char) {
    '0' <= c <= '9'
  }

  /** The character class `[:\s]` that separates a label from its value. */
  predicate IsDelim(c: char) {
    c == ':' || IsSpace(c)
  }

  /** Lower-cases an ASCII letter and leaves every other character alone. */
  function Fold(c: char): (r: char)
    ensures IsWord(c) <==> IsWord(r)
    ensures 'A' <= c <= 'Z' ==> 'a' <= r <= 'z'
    ensures !('A' <= c <= 'Z') ==> r == c
  {
    if 'A' <= c <= 'Z' then (c as int + 32) as char else c
  }

  /** Under IGNORECASE a character matches a lower-case ASCII letter exactly
      when it is that letter or its upper-case form, and any other keyword
      character only when it is that character. */
  lemma FoldIgnoresCase(c: char, l: char)
    requires !('A' <= l <= 'Z')
    ensures Fold(c) == l <==> c == l || ('a' <= l <= 'z' && c as int == l as int - 32)
  {
  }

  /** The lower-case keyword `kw` starts at position `i` of `t`, letter case
      ignored. */
  predicate OccursAt(t: string, i: nat, kw: string) {
    i + |kw| <= |t| && AgreesFrom(t, i, kw, 0)
  }

  /** From position `i` of `t` on, the text agrees with `kw[j..]`, letter
      case ignored. */
  predicate AgreesFrom(t: string, i: nat, kw: string, j: nat)
    decreases |t| - i
  {
    j >= |kw| || (i < |t| && Fold(t[i]) == kw[j] && AgreesFrom(t, i + 1, kw, j + 1))
  }

  /** `kw` occurs at `i` exactly when the text is long enough and every
      character of `kw` is the case-folded character of the text opposite it. */
  lemma OccursAtSpec(t: string, i: nat, kw: string)
    requires i <= |t|
    ensures OccursAt(t, i, kw) <==>
      i + |kw| <= |t| && forall p :: i <= p < i + |kw| ==> Fold(t[p]) == kw[p - i]
  {
    AgreesFromSpec(t, i, kw, 0);
  }

  /** `AgreesFrom` compares `kw[j..]` with the text from `i` on, character by
      character. */
  lemma {:induction false} AgreesFromSpec(t: string, i: nat, kw: string, j: nat)
    requires i <= |t| && j <= |kw|
    ensures AgreesFrom(t, i, kw, j) <==>
      i + (|kw| - j) <= |t| && forall p :: i <= p < i + (|kw| - j) ==> Fold(t[p]) == kw[j + (p - i)]
    decreases |kw| - j
  {
    if j < |kw| && i < |t| {
      AgreesFromSpec(t, i + 1, kw, j + 1);
    }
  }

  /** Every character of `t[a..b]` satisfies `p`. */
  predicate AllIn(t: string, a: nat, b: nat, p: char -> bool) {
    a <= b <= |t| && forall k :: a <= k < b ==> p(t[k])
  }

  /** Length of the maximal run of `p`-characters that starts at `i`:
      what a greedy `[...]*` takes there. */
  function RunLength(t: string, i: nat, p: char -> bool): (n: nat)
    requires i <= |t|
    ensures AllIn(t, i, i + n, p)
    ensures i + n == |t| || !p(t[i + n])
    decreases |t| - i
  {
    if i == |t| || !p(t[i]) then 0 else 1 + RunLength(t, i + 1, p)
  }

  /** A run of `p`-characters from `i` that stops at `j` is the maximal one. */
  lemma RunLengthExact(t: string, i: nat, j: nat, p: char -> bool)
    requires AllIn(t, i, j, p) && (j == |t| || !p(t[j]))
    ensures RunLength(t, i, p) == j - i
  {
  }

  /** A run of `p`-characters from `i` to `j` lies inside the maximal run. */
  lemma {:induction false} RunLengthAtLeast(t: string, i: nat, j: nat, p: char -> bool)
    requires AllIn(t, i, j, p)
    ensures i + RunLength(t, i, p) >= j
    decreases j - i
  {
    if i < j {
      RunLengthAtLeast(t, i + 1, j, p);
    }
  }

  /** Length of the maximal run of `p`-characters that ends just before `j`. */
  function RunLengthBack(t: string, j: nat, p: char -> bool): (n: nat)
    requires j <= |t|
    ensures n <= j && AllIn(t, j - n, j, p)
    ensures n == j || !p(t[j - n - 1])
    decreases j
  {
    if j == 0 || !p(t[j - 1]) then 0 else 1 + RunLengthBack(t, j - 1, p)
  }

  /** Python's `s.strip(chars)` where `p` says which characters are in `chars`:
      the leading run of `p`-characters and the trailing run are removed, and
      what is left neither begins nor ends with one. */
  function Strip(s: string, p: char -> bool): (r: string)
    ensures var a := RunLength(s, 0, p);
      && a + |r| <= |s|
      && r == s[a..a + |r|]
      && AllIn(s, a + |r|, |s|, p)
    ensures r != [] ==> !p(r[0]) && !p(r[|r| - 1])
    ensures r == [] <==> AllIn(s, 0, |s|, p)
  {
    var a := RunLength(s, 0, p);
    var n := RunLengthBack(s, |s|, p);
    if a == |s| then []
    else
      assert !p(s[a]);
      s[a..|s| - n]
  }

  /** Python's `s.strip()`. */
  function Trim(s: string): (r: string) {
    Strip(s, IsSpace)
  }

  /** What is left of `s` once `s.strip()` has removed the leading and the
      trailing whitespace. */
  lemma TrimSpec(s: string)
    ensures var r := Trim(s);
      var a := RunLength(s, 0, IsSpace);
      && a + |r| <= |s|
      && r == s[a..a + |r|]
      && AllIn(s, a + |r|, |s|, IsSpace)
      && (r != [] ==> !IsSpace(r[0]) && !IsSpace(r[|r| - 1]))
  {
    var r := Strip(s, IsSpace);
    assert r != [] ==> !IsSpace(r[0]) && !IsSpace(r[|r| - 1]);
  }

  /** The first position at or after `i` where `kw` occurs: the lazy `.*?`
      that runs up to `kw` stops there. */
  function FindFrom(t: string, i: nat, kw: string): (r: Option<nat>)
    requires i <= |t|
    ensures r.Some? ==> i <= r.value && OccursAt(t, r.value, kw)
    decreases |t| - i
  {
    if OccursAt(t, i, kw) then Some(i)
    else if i == |t| then None
    else FindFrom(t, i + 1, kw)
  }

  /** `FindFrom` finds the leftmost occurrence at or after `i`, and finds
      nothing exactly when there is none. */
  lemma {:induction false} FindFromLeftmost(t: string, i: nat, kw: string)
    requires i <= |t|
    ensures var r := FindFrom(t, i, kw);
      && (r.Some? ==> forall q :: i <= q < r.value ==> !OccursAt(t, q, kw))
      && (r.None? ==> forall q :: i <= q <= |t| ==> !OccursAt(t, q, kw))
    decreases |t| - i
  {
    if !OccursAt(t, i, kw) && i < |t| {
      FindFromLeftmost(t, i + 1, kw);
    }
  }

  /** A character that lower-cases to an ASCII letter is a word character and
      neither a delimiter nor a space. */
  lemma FoldedLetter(c: char)
    requires 'a' <= Fold(c) <= 'z'
    ensures IsWord(c) && !IsDelim(c)
  {
  }

  /** Word characters and delimiters are disjoint classes. */
  lemma WordNotDelim(c: char)
    requires IsWord(c)
    ensures !IsDelim(c)
  {
  }

  /** A keyword that starts with a letter never starts on a delimiter: it
      starts inside a word. */
  lemma KeywordNotDelim(t: string, i: nat, kw: string)
    requires OccursAt(t, i, kw) && |kw| > 0 && 'a' <= kw[0] <= 'z'
    ensures !IsDelim(t[i]) && IsWord(t[i])
  {
    FoldedLetter(t[i]);
  }

  /** Inside an occurrence of `kw` at `i`, each character folds to the
      keyword's character at the same offset. */
  lemma OccursAtChar(t: string, i: nat, kw: string, q: nat)
    requires OccursAt(t, i, kw) && i <= q < i + |kw|
    ensures Fold(t[q]) == kw[q - i]
  {
    AgreesAt(t, i, kw, 0, q);
  }

  lemma {:induction false} AgreesAt(t: string, i: nat, kw: string, j: nat, q: nat)
    requires AgreesFrom(t, i, kw, j) && i <= q && j + (q - i) < |kw|
    ensures q < |t| && Fold(t[q]) == kw[j + (q - i)]
    decreases q - i
  {
    if q > i {
      AgreesAt(t, i + 1, kw, j + 1, q);
    }
  }

  /** An occurrence inside a slice is an occurrence in the whole text. */
  lemma OccursInSlice(t: string, a: nat, b: nat, q: nat, kw: string)
    requires a <= b <= |t|
    requires OccursAt(t[a..b], q, kw)
    ensures OccursAt(t, a + q, kw) && a + q + |kw| <= b
  {
    AgreesInSlice(t, a, b, q, kw, 0);
  }

  lemma {:induction false} AgreesInSlice(t: string, a: nat, b: nat, q: nat, kw: string, j: nat)
    requires a <= b <= |t|
    requires AgreesFrom(t[a..b], q, kw, j)
    ensures AgreesFrom(t, a + q, kw, j)
    decreases b - a - q
  {
    if j < |kw| {
      assert t[a..b][q] == t[a + q];
      AgreesInSlice(t, a, b, q + 1, kw, j + 1);
    }
  }
}
